=== FILE: README.md ===
# Solaris register codec and poll cycle, in Dafny

Solaris reads the input registers of a solar inverter over Modbus TCP. It turns each register
range into a value and writes the values as InfluxDB data points. This project models three
parts of it as pure Dafny and proves properties of them:

- **The register codec.** These are the two `Convert::try_into_human_readable` impls on
  `Vec<u16>` (module `Convert`):
  - The text impl handles `"string"` and `"hex"`.
  - The integer impl handles `"u32"`, `"i32"`, `"u16"` and `"i16"`.
  - Both return an error for any other data type.

  The library behaviour the text impl relies on is modelled exactly, each in its own module:
  - `u16::to_be_bytes` flattened over the words (`Words`);
  - `String::from_utf8_lossy`, with the maximal-subpart replacement rule (`Utf8`);
  - `str::trim`, with the Unicode White_Space list that `char::is_whitespace` uses (`Trim`);
  - `hex::encode`, which writes lowercase (`Hex`).
- **One poll cycle of `main`** (module `Cycle`). This is one pass of the outer `loop`, up to
  the sleep:
  - connect;
  - read each mapping's registers in schema order;
  - skip a mapping whose read failed;
  - panic on a data type that has no arm;
  - build one data point per successful read;
  - close the connection;
  - write all points to the sink, only logging a write error.

  Several things are parameters of the model:
  - the transport, as `connects`, a `read(address, count)` oracle, and `closes`;
  - the sink, as a bucket and an `accepts` oracle;
  - the three converters that `main` calls;
  - the snake-case conversion.
- **The inverter schema records** `Mapping`, `StatisticMapping`, `ValueEnum`, `StatisticType`
  and `InverterConfig` (module `InverterConfig`). The model also covers how serde's derived
  `Deserialize` fills them from a parsed YAML node:
  - required fields;
  - the default `length` of 1;
  - `#[serde(default)]` optionals, which are `None` when absent or null;
  - unknown keys, which are ignored.

`Wrappers` holds `Option` and `Result`.

Four behaviours of the code are easy to miss:

- **NUL padding.** `str::trim` does not treat NUL as whitespace, so the registers
  `[0x4142, 0x4300]` read as `"ABC"` followed by NUL (`Convert.StringKeepsNulPadding`).
- **u32/i32 word count.** `"u32"` and `"i32"` unwrap a conversion of the bytes into a 4-byte
  array, so any word count other than two panics. Both have the precondition `|words| == 2`.
- **u16/i16 on no words.** `"u16"` and `"i16"` index `self[0]` (src/convert.rs:64-65), which
  panics on an empty slice. Both have the precondition `|words| >= 1`, and any words after the
  first are ignored (`Convert.SixteenBitIgnoresExtraWords`).
- **i16.** `"i16"` widens the word unsigned, exactly like `"u16"` (see "## Findings").

## Model

| member | source | states |
|---|---|---|
| Words.ToBeBytes | src/convert.rs:17-20 | the byte sequence has two bytes per word, in word order, each word's high byte first |
| Words.FromToBeBytes | src/convert.rs:17-20 | joining the byte pairs back gives the original words, so the flattening loses nothing |
| Words.ToFromBeBytes | src/convert.rs:17-20 | every even-length byte sequence is the flattening of the words its pairs form |
| Words.ToBeBytesAppend | src/convert.rs:17-20 | flattening distributes over concatenation of word sequences |
| Convert.TextConvert | src/convert.rs:13-36 | `"string"` always succeeds with a text that has no whitespace at either end and at most two characters per word; `"hex"` always succeeds with four characters per word, and reading the text back in 4-digit groups gives the words; any other tag fails with "No conversion specified for type" and the tag |
| Convert.StringOfAscii | src/convert.rs:17-22 | on words whose bytes are all ASCII, `"string"` gives exactly the characters of the bytes, with leading and trailing whitespace removed |
| Convert.StringRoundTrip | src/convert.rs:17-22 | a trimmed text whose UTF-8 encoding fills whole registers reads back unchanged from those registers |
| Convert.StringTrimIdempotent | src/convert.rs:22 | trimming the `"string"` result again changes nothing |
| Convert.StringKeepsNulPadding | src/convert.rs:22 | `[0x4142, 0x4300]` reads as "ABC" followed by NUL, because NUL is not whitespace |
| Utf8.DecodeLossy | src/convert.rs:22 | lossy decoding is total and produces between one character per four bytes and one per byte |
| Utf8.NextStep | src/convert.rs:22 | each decoding step consumes one to four bytes, and takes exactly one byte as a character exactly when that byte is ASCII |
| Utf8.NextStepEncodeChar | src/convert.rs:22 | the decoder recognises the UTF-8 encoding of any character, whatever bytes follow |
| Utf8.NextStepValidIff | src/convert.rs:22 | a decoding step yields a character exactly when the input starts with that character's UTF-8 encoding, so overlong forms, surrogates and code points above U+10FFFF never decode as characters |
| Utf8.DecodeEncode | src/convert.rs:22 | well-formed UTF-8 decodes to the text it encodes; decoding introduces no replacement characters |
| Utf8.DecodeAscii | src/convert.rs:22 | ASCII bytes decode one for one into the characters with the same codes |
| Trim.Trim | src/convert.rs:22 | the result has no whitespace at either end, and the input is the result with a whitespace prefix before it and a whitespace suffix after it |
| Trim.TrimUnique | src/convert.rs:22 | whenever the input splits into whitespace, a trimmed middle and whitespace, the trim is that middle |
| Trim.TrimIdempotent | src/convert.rs:22 | trimming twice is trimming once |
| Trim.TrimAllWhitespace | src/convert.rs:22 | an all-whitespace text trims to the empty text |
| Hex.Encode | src/convert.rs:31 | two characters per byte: the digit of its high nibble, then the digit of its low nibble |
| Hex.EncodeIsLowerHex | src/convert.rs:31 | every character of the encoding is a lowercase hex digit |
| Hex.DigitValue | src/convert.rs:31 | a character has a digit value exactly when it is a lowercase hex digit; the value is a nibble whose digit is that character |
| Hex.DecodeEncode | src/convert.rs:31 | decoding the hex text of any bytes gives those bytes back |
| Hex.EncodeDecode | src/convert.rs:31 | any text that decodes is the encoding of what it decodes to, so the encoding is the only text for its bytes |
| Hex.WordsOfHex | src/convert.rs:26-31 | a text that reads as words has exactly four characters per word |
| Hex.WordsOfHexRoundTrip | src/convert.rs:26-31 | the hex text of the words' big-endian bytes reads back, in groups of four digits, as those words |
| Convert.IntConvert | src/convert.rs:39-68 | `"u32"` of two words is `hi * 65536 + lo`, in [0, 2^32); `"i32"` lies in [-2^31, 2^31) and agrees with `"u32"` modulo 2^32; `"u16"` and `"i16"` give the first word unchanged, in [0, 65536); any other tag fails with the no-conversion message |
| Convert.U32OfTwoWords | src/convert.rs:42-50 | `u32::from_be_bytes` of the four bytes of two words is the first word times 65536 plus the second |
| Convert.I32Sign | src/convert.rs:53-61 | `"i32"` is negative exactly when the top bit of the first word is set |
| Convert.SixteenBitIgnoresExtraWords | src/convert.rs:64-65 | `"u16"` and `"i16"` give the same result for the first word alone as for the whole sequence |
| Convert.I16DoesNotSignExtend | src/convert.rs:65 | as written, `"i16"` of 0xFFFF is 65535, whereas the two's-complement reading is -1 |
| Convert.IntConvertIntended | src/convert.rs:64-66 | with `"i16"` read as two's complement, the result lies in [-32768, 32768), agrees with the word modulo 2^16, and is negative exactly when the word's top bit is set; every other tag is unchanged |
| InverterConfig.DecodeValueEnum | src/inverter_config.rs:45-49 | an enum entry decodes exactly from a map with string `key` and `value`, to those strings |
| InverterConfig.DecodeItems | src/inverter_config.rs:21 | a sequence decodes exactly when every element does, keeping count and order |
| InverterConfig.DecodeValueEnumList | src/inverter_config.rs:21 | a `Vec<ValueEnum>` decodes exactly from a list of valid entries, entry for entry |
| InverterConfig.DecodeMapping | src/inverter_config.rs:11-26 | a mapping decodes exactly when its required fields are present and every given field has the right type; the fields take the document's values, `length` is 1 when absent, and each optional field is `None` when absent or null and otherwise `Some` of the given value |
| InverterConfig.MappingRoundTrip | src/inverter_config.rs:11-26 | every mapping reads back unchanged from the document that writes out all its fields |
| InverterConfig.DecodeStatisticMapping | src/inverter_config.rs:28-43 | the same for a statistic mapping, which has no enum table and no pointer |
| InverterConfig.StatisticMappingRoundTrip | src/inverter_config.rs:28-43 | every statistic mapping reads back unchanged from the document that writes out all its fields |
| InverterConfig.ValueEnumListRoundTrip | src/inverter_config.rs:21 | every enum table reads back unchanged, entry for entry, from its list of `key`/`value` maps |
| InverterConfig.StatisticTypeRoundTrip | src/inverter_config.rs:51-55 | among the modelled YAML nodes, a node reads as a given statistic type exactly when it is the string naming that variant |
| InverterConfig.DecodeList | src/inverter_config.rs:7-8 | a list decodes exactly when every element does, with one record per element, each the decoding of that element |
| InverterConfig.DecodeInverterConfig | src/inverter_config.rs:4-9 | a decoded schema has the document's slug, and one mapping and one statistic mapping per list element, each the decoding of that element; a document missing any of the three keys does not decode, and one whose slug is a string and whose list elements all decode does decode |
| InverterConfig.PrecisionAndEnumMayCoexist | src/inverter_config.rs:19-21 | a mapping may carry a precision and an enum table at the same time |
| InverterConfig.StatisticMappingIgnoresEnumAndPointer | src/inverter_config.rs:28-39 | `value_enum` and `statistic_pointer` keys have no effect on a statistic mapping |
| Cycle.Poll | src/main.rs:29-92 | at most one read per mapping and one point per read, and every point carries the device's measurement and tags |
| Cycle.PollAppend | src/main.rs:29-92 | the pass over two lists is the pass over the first followed, unless it panicked, by the pass over the second |
| Cycle.PollRequests | src/main.rs:29-31 | the reads go out in mapping order, one per mapping, and every mapping is read unless the pass panics |
| Cycle.PollPanics | src/main.rs:85-90 | the pass panics exactly when some mapping has a successful read and an unknown data type; it stops at the first such mapping and reports its data type |
| Cycle.OkIndices | src/main.rs:33-41 | lists, in increasing order, exactly the mappings whose read succeeds |
| Cycle.PollPointsFollowSuccessfulReads | src/main.rs:29-84 | without a panic, the j-th point belongs to the j-th mapping whose read succeeded and is built from the words that read returned |
| Cycle.PointCountIsSuccessfulReads | src/main.rs:29-84 | when every data type has an arm, the pass does not panic and the point count equals the number of successful reads |
| Cycle.FailedReadSkipsOnlyItsMapping | src/main.rs:33-39 | removing a mapping whose read fails changes neither the points nor whether the pass panics |
| Cycle.RunCycle | src/main.rs:27-104 | a failed connect panics at once; the cycle finishes exactly when the connection opens and closes and no mapping is fatal; a finished cycle connects, reads each mapping in order, closes once and then writes to the bucket exactly the points the pass over the mappings built; when the connection opens but some mapping is fatal, the cycle panics right after that pass's reads, reporting the first fatal mapping's data type; when the pass succeeds but the close fails, it panics right after the close; a panicked cycle writes nothing, and only a close failure panics after the close |
| Cycle.SinkErrorOnlyLogged | src/main.rs:95-104 | a rejecting sink changes nothing about the cycle except the write result it records |
| Cycle.PanicReasons | src/main.rs:85-90 | a data-type panic names the unknown data type of a mapping whose read succeeded |

## Findings

| source | as written | input that shows it | evidently intended | confidence | as-written member | corrected member |
|---|---|---|---|---|---|---|
| src/convert.rs:65 | the `"i16"` arm widens the word as unsigned, exactly like `"u16"` | `[0xFFFF]` with `"i16"` gives 65535 | the two's-complement reading, -1 | high (not executed) | Convert.I16DoesNotSignExtend | Convert.IntConvertIntended |

`Cycle` takes its converters as parameters, so the finding does not change the cycle model.

## Left out

- YAML text parsing and file opening (`inverter_config::read`) are left out. Decoding starts from a parsed `Yaml` node whose scalars already have their types. serde_yaml's scalar resolution, such as reading `"1"` as a string and not as a number, is not modelled.
- InverterConfig.DecodeMapping: the error value it returns is the first bad field in declaration order. serde reports whichever bad field it meets first in document order. Only success, failure and the decoded values are claimed to match.
- InverterConfig.DecodeMapping: a `String` field accepts only a string node. serde_yaml also gives a plain scalar such as `123` or `true` to a `String` field as its text. The `Yaml` node no longer holds that text, so such documents are rejected here.
- InverterConfig.DecodeStatisticMapping: the same `String` field gap as DecodeMapping.
- InverterConfig.StatisticTypeRoundTrip: holds only over the modelled `Yaml` nodes, where a unit variant is spelled by its name as a string. serde_yaml also accepts other spellings: a singleton map such as `{Daily: ~}` (0.8) and a tagged value such as `!Daily` (0.9). The model rejects the first and cannot represent the second.
- InverterConfig.DecodeMapping: its `statistic_type` field accepts only the plain string spelling. The singleton-map and tagged spellings serde_yaml also accepts are rejected, so `IsMappingDoc` is stricter than serde here.
- InverterConfig.DecodeStatisticMapping: the same `statistic_type` spelling gap as DecodeMapping, so `IsStatisticMappingDoc` is stricter than serde here.
- InverterConfig.DecodeValueEnum: serde's derived `Deserialize` also reads a struct from a YAML sequence of its fields in declaration order, and serde_yaml passes sequences to it. The model accepts only the map spelling and rejects a sequence with `InvalidType`, so the entry `[k, v]` is rejected here though serde reads it as `{key: k, value: v}`.
- InverterConfig.DecodeValueEnumList: a list of entries is valid here only when every entry is a map. An entry written as a sequence `[k, v]` is rejected, for the reason given under DecodeValueEnum.
- InverterConfig.DecodeMapping: serde's derived `Deserialize` also reads a struct from a YAML sequence of its fields in declaration order, and serde_yaml passes sequences to it. The model accepts only the map spelling and rejects a sequence with `InvalidType`. So `[voltage, 5, 1, u16]` is rejected here, though serde reads it as a mapping whose later fields are absent.
- InverterConfig.DecodeStatisticMapping: the same sequence-spelling gap as DecodeMapping.
- InverterConfig.DecodeInverterConfig: serde's derived `Deserialize` also reads a struct from a YAML sequence of its fields in declaration order, and serde_yaml passes sequences to it. The model accepts only the map spelling and rejects a sequence with `InvalidType`. Its clause `!v.Dict? ==> r.Failure?` therefore rejects the whole schema written as `[slug, [...], [...]]`, which serde accepts.
- InverterConfig.DecodeValueEnum: the same `String` field gap for `key` and `value`.
- `f64` is modelled as a real number. Rounding of floats is not modelled.
- Application configuration is left out: `app_config`, the `config.yaml` fallback and environment overrides. The device address, bucket and transport outcomes enter as parameters.
- The Modbus and InfluxDB clients are oracles: `Transport` and `Sink`. Timeouts, retries and the TCP and HTTP protocols are not modelled.
- Cycle.FailedReadSkipsOnlyItsMapping: reads are modelled as independent of history. The same request always gets the same answer, and a failed read cannot affect a later one. The real Modbus TCP transport keeps state, so a late reply to a timed-out read could make the next read fail. The isolation lemma does not cover that.
- The infinite `loop`, the `tokio` runtime and the sleep between cycles are left out. One cycle is modelled.
- Logging (`error!`, `debug!`) is left out. It has no effect on the outcome.
- `convert_to_string`, `convert_to_hex` and `convert_to_decimal10` are parameters. The definitions `main` calls are not part of this model. `decimal10` has no definition in the modelled files.
- `to_case(Case::Snake)` is an uninterpreted parameter.
- Cycle.RunCycle: it requires `register_address >= 1` of every mapping, and so does Cycle.Poll (through `Addressable`). A debug build panics on `0 - 1`, and a release build wraps it to a read at 65535. Neither behaviour is modelled.
- `DataPoint::builder(...).build().unwrap()` cannot fail here, because every point has one field. The panic path is omitted.
- Utf8.DecodeLossy: its own contract states only length bounds. What it decodes is stated by Utf8.DecodeEncode, Utf8.DecodeAscii and Utf8.NextStep.
- Cycle.Poll: its own contract states only bounds and the shared measurement and tags. Order, count and contents are stated by Cycle.PollRequests, Cycle.PollPanics and Cycle.PollPointsFollowSuccessfulReads.
- The commented-out float and bool converters (src/convert.rs:71-97) are dead code and are left out.
- The schema carries precision scaling, enum-label lookup and daily or monthly statistic expansion. None of the modelled files implements them, so only the fields are modelled. `statistic_mappings` is decoded but unused by the cycle.

=== FILE: convert.dfy ===
/**
 * The two `Convert::try_into_human_readable` impls on a register word sequence: the text
 * impl (`"string"`, `"hex"`) and the integer impl (`"u32"`, `"i32"`, `"u16"`, `"i16"`).
 */
module Convert {
  import opened Wrappers
  import opened Words
  import Utf8
  import Trim
  import Hex

  const TwoTo16: int := 0x1_0000
  const TwoTo31: int := 0x8000_0000
  const TwoTo32: int := 0x1_0000_0000

  /** The error both impls return for a data type outside their match arms. */
  function NoConversion(dataType: string): string {
    "No conversion specified for type " + dataType
  }

  /** The unsigned value of two words read most significant word first. */
  function BigEndianValue(hi: Word, lo: Word): int {
    hi * TwoTo16 + lo
  }

  // ---------------------------------------------------------------------------
  // Text impl
  // ---------------------------------------------------------------------------

  /**
   * `impl Convert<String> for Vec<u16>`: `"string"` decodes the big-endian bytes as lossy
   * UTF-8 and trims whitespace at both ends; `"hex"` writes the same bytes as lowercase
   * hexadecimal text; any other type is an error.
   */
  function TextConvert(words: seq<Word>, dataType: string): (r: Result<string, string>)
    ensures dataType == "string" ==> r.Success? && Trim.IsTrimmed(r.value) && |r.value| <= 2 * |words|
    ensures dataType == "hex" ==> r.Success? && |r.value| == 4 * |words| && Hex.WordsOfHex(r.value) == Some(words)
    ensures dataType != "string" && dataType != "hex" ==> r == Failure(NoConversion(dataType))
  {
    if dataType == "string" then
      Success(Trim.Trim(Utf8.DecodeLossy(ToBeBytes(words))))
    else if dataType == "hex" then
      Hex.WordsOfHexRoundTrip(words);
      Success(Hex.Encode(ToBeBytes(words)))
    else
      Failure(NoConversion(dataType))
  }

  /** The characters whose codes are the given bytes. */
  function Latin1Text(bytes: seq<Byte>): (s: string)
    ensures |s| == |bytes|
    ensures forall i :: 0 <= i < |bytes| ==> s[i] as int == bytes[i]
  {
    seq(|bytes|, i requires 0 <= i < |bytes| => bytes[i] as char)
  }

  /** Words whose two bytes are both ASCII give an all-ASCII byte sequence. */
  lemma {:induction false} AsciiWordsAsciiBytes(words: seq<Word>)
    requires forall i :: 0 <= i < |words| ==> High(words[i]) < 0x80 && Low(words[i]) < 0x80
    ensures forall k :: 0 <= k < |ToBeBytes(words)| ==> ToBeBytes(words)[k] < 0x80
  {
    if |words| > 0 {
      var w, rest := words[0], words[1..];
      assert forall i :: 0 <= i < |rest| ==> rest[i] == words[i + 1];
      AsciiWordsAsciiBytes(rest);
      assert ToBeBytes(words) == [High(w), Low(w)] + ToBeBytes(rest);
    }
  }

  /**
   * On registers holding ASCII bytes, `"string"` is the text of those bytes, character for
   * byte, with leading and trailing whitespace removed.
   */
  lemma StringOfAscii(words: seq<Word>)
    requires forall i :: 0 <= i < |words| ==> High(words[i]) < 0x80 && Low(words[i]) < 0x80
    ensures TextConvert(words, "string") == Success(Trim.Trim(Latin1Text(ToBeBytes(words))))
  {
    var bytes := ToBeBytes(words);
    assert forall k :: 0 <= k < |bytes| ==> bytes[k] < 0x80 by {
      AsciiWordsAsciiBytes(words);
    }
    assert Utf8.DecodeLossy(bytes) == Latin1Text(bytes) by {
      DecodeAsciiIsLatin1(bytes);
    }
  }

  /** All-ASCII bytes decode to the characters with those codes. */
  lemma DecodeAsciiIsLatin1(bytes: seq<Byte>)
    requires forall k :: 0 <= k < |bytes| ==> bytes[k] < 0x80
    ensures Utf8.DecodeLossy(bytes) == Latin1Text(bytes)
  {
    Utf8.DecodeAscii(bytes);
  }

  /**
   * A trimmed text whose UTF-8 encoding fills whole registers is read back exactly from
   * those registers.
   */
  lemma StringRoundTrip(s: string)
    requires Trim.IsTrimmed(s)
    requires |Utf8.Encode(s)| % 2 == 0
    ensures TextConvert(FromBeBytes(Utf8.Encode(s)), "string") == Success(s)
  {
    var bytes := Utf8.Encode(s);
    ToFromBeBytes(bytes);
    Utf8.DecodeEncode(s);
    assert s == [] + s + [];
    Trim.TrimUnique(s, [], s, []);
  }

  /** The `"string"` result is already trimmed: trimming it again changes nothing. */
  lemma StringTrimIdempotent(words: seq<Word>)
    ensures Trim.Trim(TextConvert(words, "string").value) == TextConvert(words, "string").value
  {
    Trim.TrimIdempotent(Utf8.DecodeLossy(ToBeBytes(words)));
  }

  /**
   * NUL is not whitespace to `str::trim`: a text padded with a zero byte keeps it, so the
   * registers `[0x4142, 0x4300]` read as "ABC" followed by NUL.
   */
  lemma StringKeepsNulPadding()
    ensures TextConvert([0x4142, 0x4300], "string") == Success("ABC\0")
  {
    var words: seq<Word> := [0x4142, 0x4300];
    var bytes: seq<Byte> := [0x41, 0x42, 0x43, 0x00];
    assert ToBeBytes(words) == bytes by {
      assert High(0x4142) == 0x41 && Low(0x4142) == 0x42;
      assert High(0x4300) == 0x43 && Low(0x4300) == 0x00;
    }
    Utf8.DecodeAscii(bytes);
    var text := Utf8.DecodeLossy(bytes);
    assert text == "ABC\0";
    assert text == [] + text + [];
    Trim.TrimUnique(text, [], text, []);
  }

  // ---------------------------------------------------------------------------
  // Integer impl
  // ---------------------------------------------------------------------------

  /**
   * The word counts the integer impl needs to avoid a panic: `"u32"`/`"i32"` convert the
   * bytes with `try_into().unwrap()` into a 4-byte array, so exactly two words; `"u16"`/`"i16"`
   * index the first word.
   */
  predicate WordCountOk(words: seq<Word>, dataType: string) {
    && ((dataType == "u32" || dataType == "i32") ==> |words| == 2)
    && ((dataType == "u16" || dataType == "i16") ==> |words| >= 1)
  }

  /** `u32::from_be_bytes`. */
  function U32FromBeBytes(b: seq<Byte>): int
    requires |b| == 4
  {
    b[0] as int * 0x100_0000 + b[1] as int * 0x1_0000 + b[2] as int * 0x100 + b[3] as int
  }

  /** `as i32` reinterpretation of a 32-bit pattern (`i32::from_be_bytes`). */
  function Signed32(u: int): int
    requires 0 <= u < TwoTo32
  {
    if u < TwoTo31 then u else u - TwoTo32
  }

  /** `as i16` reinterpretation of a 16-bit pattern. */
  function Signed16(u: Word): int {
    if u < 0x8000 then u else u - TwoTo16
  }

  /** The four big-endian bytes of two words, read as `u32`, give the two words joined. */
  lemma U32OfTwoWords(words: seq<Word>)
    requires |words| == 2
    ensures var v := U32FromBeBytes(ToBeBytes(words));
      v == BigEndianValue(words[0], words[1]) && 0 <= v < TwoTo32
  {
    var b := ToBeBytes(words);
    assert b[0] == High(words[0]) && b[1] == Low(words[0]);
    assert b[2] == High(words[1]) && b[3] == Low(words[1]);
    JoinHighLow(words[0]);
    JoinHighLow(words[1]);
  }

  /**
   * `impl Convert<i64> for Vec<u16>`: `"u32"` and `"i32"` read both words as one big-endian
   * 32-bit value, unsigned or two's complement; `"u16"` and `"i16"` both widen the first word
   * without sign extension; any other type is an error.
   */
  function IntConvert(words: seq<Word>, dataType: string): (r: Result<int, string>)
    requires WordCountOk(words, dataType)
    ensures dataType == "u32" ==> r == Success(BigEndianValue(words[0], words[1])) && 0 <= r.value < TwoTo32
    ensures dataType == "i32" ==> r.Success? && -TwoTo31 <= r.value < TwoTo31
    ensures dataType == "i32" ==> (r.value - BigEndianValue(words[0], words[1])) % TwoTo32 == 0
    ensures dataType == "u16" || dataType == "i16" ==> r.Success? && 0 <= r.value < TwoTo16 && r.value == words[0]
    ensures dataType != "u32" && dataType != "i32" && dataType != "u16" && dataType != "i16" ==>
      r == Failure(NoConversion(dataType))
  {
    if dataType == "u32" then
      U32OfTwoWords(words);
      Success(U32FromBeBytes(ToBeBytes(words)))
    else if dataType == "i32" then
      U32OfTwoWords(words);
      Success(Signed32(U32FromBeBytes(ToBeBytes(words))))
    else if dataType == "u16" then
      Success(words[0])
    else if dataType == "i16" then
      Success(words[0])
    else
      Failure(NoConversion(dataType))
  }

  /** `"i32"` is negative exactly when the sign bit, the top bit of the first word, is set. */
  lemma I32Sign(hi: Word, lo: Word)
    ensures IntConvert([hi, lo], "i32").value < 0 <==> hi >= 0x8000
  {
    U32OfTwoWords([hi, lo]);
  }

  /** The 16-bit conversions look at the first word only. */
  lemma SixteenBitIgnoresExtraWords(words: seq<Word>, dataType: string)
    requires dataType == "u16" || dataType == "i16"
    requires |words| >= 1
    ensures IntConvert(words, dataType) == IntConvert(words[..1], dataType)
  {
  }

  /** As written, `"i16"` reads 0xFFFF as 65535, not as the two's-complement -1. */
  lemma I16DoesNotSignExtend()
    ensures IntConvert([0xFFFF], "i16") == Success(65535)
    ensures Signed16(0xFFFF) == -1
  {
  }

  /** The integer impl with `"i16"` reading the first word as two's complement. */
  function IntConvertIntended(words: seq<Word>, dataType: string): (r: Result<int, string>)
    requires WordCountOk(words, dataType)
    ensures dataType == "i16" ==> r.Success? && -0x8000 <= r.value < 0x8000 && (r.value - words[0]) % TwoTo16 == 0
    ensures dataType == "i16" ==> (r.value < 0 <==> words[0] >= 0x8000)
    ensures dataType != "i16" ==> r == IntConvert(words, dataType)
  {
    if dataType == "i16" then Success(Signed16(words[0])) else IntConvert(words, dataType)
  }
}

=== FILE: cycle.dfy ===
/**
 * One pass of the polling loop in `main`: connect, read every mapping's registers in order,
 * turn each successful read into one data point, close the connection and hand the points
 * to the time-series sink. The transport, the sink, the three register converters and the
 * snake-case conversion are parameters.
 */
module Cycle {
  import opened Wrappers
  import opened Words
  import opened InverterConfig

  /** A field value of an InfluxDB data point. */
  datatype FieldValue = BoolField(b: bool) | F64Field(f: real) | I64Field(i: int) | StringField(s: string)

  /** An InfluxDB data point as the loop builds it: no timestamp, so the sink assigns "now". */
  datatype DataPoint = DataPoint(measurement: string, tags: seq<(string, string)>, fields: seq<(string, FieldValue)>)

  /** The converters the loop calls on the words it read, one per supported data type. */
  datatype Converters = Converters(
    toString: seq<Word> -> string,
    toHex: seq<Word> -> string,
    toDecimal10: seq<Word> -> FieldValue)

  /** The Modbus connection: whether opening and closing succeed, and what each read returns. */
  datatype Transport = Transport(
    connects: bool,
    read: (U16, U16) -> Option<seq<Word>>,
    closes: bool)

  /** The InfluxDB sink: the target bucket and whether a write of the given points succeeds. */
  datatype Sink = Sink(bucket: string, accepts: seq<DataPoint> -> bool)

  /** What a pass over the mappings needs: device identity, reads, converters and snake case. */
  datatype Env = Env(
    inverterSlug: string,
    inverterAddress: string,
    read: (U16, U16) -> Option<seq<Word>>,
    converters: Converters,
    snake: string -> string)

  /** The externally visible actions of a cycle, in order. */
  datatype Event = Connect | Read(address: U16, count: U16) | Close | Write(bucket: string, points: seq<DataPoint>)

  /** Why a cycle panics: `unwrap` on connect or close, or a data type with no conversion. */
  datatype Panic = ConnectFailed | NoConversion(dataType: string) | CloseFailed

  /** How a cycle ends. A sink error is only logged, so a finished cycle records it as `writeOk`. */
  datatype Outcome =
    | Finished(events: seq<Event>, points: seq<DataPoint>, writeOk: bool)
    | Panicked(events: seq<Event>, reason: Panic)

  // ---------------------------------------------------------------------------
  // One mapping
  // ---------------------------------------------------------------------------

  /** The `u16` subtraction `register_address - 1` needs a register address of at least 1. */
  predicate Addressable(ms: seq<Mapping>) {
    forall i :: 0 <= i < |ms| ==> ms[i].registerAddress >= 1
  }

  /** The read a mapping issues: `length` words from the 0-based address `register_address - 1`. */
  function ReadRequest(m: Mapping): (e: Event)
    requires m.registerAddress >= 1
    ensures e.Read? && e.address + 1 == m.registerAddress && e.count == m.length
  {
    Read(m.registerAddress - 1, m.length)
  }

  /** What the transport returns for a mapping's read request. */
  function ReadResult(env: Env, m: Mapping): Option<seq<Word>>
    requires m.registerAddress >= 1
  {
    env.read(m.registerAddress - 1, m.length)
  }

  /** The data types the loop's match has an arm for. */
  predicate KnownDataType(dataType: string) {
    dataType == "string" || dataType == "hex" || dataType == "decimal10"
  }

  /** The tags every point carries. */
  function Tags(env: Env): seq<(string, string)> {
    [("inverter", env.inverterSlug), ("ip_address", env.inverterAddress)]
  }

  /**
   * The point built for a mapping whose registers read as `words`: the measurement and tags
   * come from the device alone, the one field from the mapping and its converter.
   */
  function PointFor(env: Env, m: Mapping, words: seq<Word>): (dp: DataPoint)
    requires KnownDataType(m.dataType)
    ensures dp.measurement == env.snake(env.inverterSlug) && dp.tags == Tags(env)
    ensures |dp.fields| == 1 && dp.fields[0].0 == env.snake(m.name)
    ensures m.dataType == "string" ==> dp.fields[0].1 == StringField(env.converters.toString(words))
    ensures m.dataType == "hex" ==> dp.fields[0].1 == StringField(env.converters.toHex(words))
    ensures m.dataType == "decimal10" ==> dp.fields[0].1 == env.converters.toDecimal10(words)
  {
    var value :=
      if m.dataType == "string" then StringField(env.converters.toString(words))
      else if m.dataType == "hex" then StringField(env.converters.toHex(words))
      else env.converters.toDecimal10(words);
    DataPoint(env.snake(env.inverterSlug), Tags(env), [(env.snake(m.name), value)])
  }

  /** What one iteration does with a mapping. */
  datatype Step = Skip | Emit(point: DataPoint) | Abort(dataType: string)

  /**
   * One iteration: a failed read skips the mapping before its data type is looked at; a
   * successful read emits a point or, for a data type with no arm, panics.
   */
  function StepFor(env: Env, m: Mapping): (s: Step)
    requires m.registerAddress >= 1
    ensures s.Skip? <==> ReadResult(env, m).None?
    ensures s.Abort? <==> ReadResult(env, m).Some? && !KnownDataType(m.dataType)
    ensures s.Abort? ==> s.dataType == m.dataType
    ensures s.Emit? ==> s.point == PointFor(env, m, ReadResult(env, m).value)
  {
    match ReadResult(env, m)
    case None => Skip
    case Some(words) =>
      if KnownDataType(m.dataType) then Emit(PointFor(env, m, words)) else Abort(m.dataType)
  }

  /** The read for a mapping succeeds. */
  predicate ReadOk(env: Env, m: Mapping)
    requires m.registerAddress >= 1
  {
    ReadResult(env, m).Some?
  }

  /** A mapping that makes the loop panic: its read succeeded and its data type has no arm. */
  predicate Fatal(env: Env, m: Mapping)
    requires m.registerAddress >= 1
  {
    ReadOk(env, m) && !KnownDataType(m.dataType)
  }

  // ---------------------------------------------------------------------------
  // The pass over all mappings
  // ---------------------------------------------------------------------------

  /** The reads issued, the points pushed, and the data type that panicked, if one did. */
  datatype Pass = Pass(requests: seq<Event>, points: seq<DataPoint>, aborted: Option<string>)

  /** Dropping the first mapping keeps every address readable. */
  lemma AddressableTail(ms: seq<Mapping>)
    requires Addressable(ms) && |ms| > 0
    ensures Addressable(ms[1..])
  {
    assert forall i :: 0 <= i < |ms| - 1 ==> ms[1..][i] == ms[i + 1];
  }

  /**
   * The `for mapping in &inverter_config.mappings` loop: at most one read per mapping and at
   * most one point per read, and every point carries the device's measurement and tags.
   */
  function Poll(env: Env, ms: seq<Mapping>): (p: Pass)
    requires Addressable(ms)
    ensures |p.points| <= |p.requests| <= |ms|
    ensures forall j :: 0 <= j < |p.points| ==>
      p.points[j].measurement == env.snake(env.inverterSlug) && p.points[j].tags == Tags(env)
    decreases |ms|
  {
    if |ms| == 0 then Pass([], [], None)
    else
      var m := ms[0];
      AddressableTail(ms);
      var step := StepFor(env, m);
      if step.Abort? then Pass([ReadRequest(m)], [], Some(step.dataType))
      else Extend(m, step, Poll(env, ms[1..]))
  }

  /** The pass over `[m] + rest` when the step for `m` does not panic. */
  function Extend(m: Mapping, step: Step, rest: Pass): Pass
    requires m.registerAddress >= 1 && !step.Abort?
  {
    Pass([ReadRequest(m)] + rest.requests, (if step.Emit? then [step.point] else []) + rest.points, rest.aborted)
  }

  /** One unfolding of `Poll`. */
  lemma PollUnfold(env: Env, ms: seq<Mapping>)
    requires Addressable(ms) && |ms| > 0
    ensures Addressable(ms[1..])
    ensures var step := StepFor(env, ms[0]);
      Poll(env, ms) == if step.Abort? then Pass([ReadRequest(ms[0])], [], Some(step.dataType))
        else Extend(ms[0], step, Poll(env, ms[1..]))
  {
    AddressableTail(ms);
  }

  /** Two lists with readable addresses concatenate to one. */
  lemma AddressableAppend(a: seq<Mapping>, b: seq<Mapping>)
    requires Addressable(a) && Addressable(b)
    ensures Addressable(a + b)
  {
    forall i | 0 <= i < |a + b|
      ensures (a + b)[i].registerAddress >= 1
    {
      if i < |a| { assert (a + b)[i] == a[i]; } else { assert (a + b)[i] == b[i - |a|]; }
    }
  }

  /** The pass over two lists, given the passes over each: the second runs only if the first did not panic. */
  function Combine(pa: Pass, pb: Pass): Pass {
    if pa.aborted.Some? then pa else Pass(pa.requests + pb.requests, pa.points + pb.points, pb.aborted)
  }

  /** Prepending a non-panicking step commutes with combining two passes. */
  lemma ExtendCombine(m: Mapping, step: Step, pa: Pass, pb: Pass)
    requires m.registerAddress >= 1 && !step.Abort?
    ensures Extend(m, step, Combine(pa, pb)) == Combine(Extend(m, step, pa), pb)
  {
    var head := if step.Emit? then [step.point] else [];
    if pa.aborted.None? {
      assert [ReadRequest(m)] + (pa.requests + pb.requests) == ([ReadRequest(m)] + pa.requests) + pb.requests;
      assert head + (pa.points + pb.points) == (head + pa.points) + pb.points;
    }
  }

  /** A pass over two lists is the pass over the first followed, if it did not panic, by the second. */
  lemma {:induction false} PollAppend(env: Env, a: seq<Mapping>, b: seq<Mapping>)
    requires Addressable(a) && Addressable(b)
    ensures Addressable(a + b)
    ensures Poll(env, a + b) == Combine(Poll(env, a), Poll(env, b))
    decreases |a|
  {
    AddressableAppend(a, b);
    if |a| == 0 {
      assert a + b == b;
    } else {
      var m, a' := a[0], a[1..];
      AddressableTail(a);
      AddressableAppend(a', b);
      assert (a + b)[0] == m;
      assert (a + b)[1..] == a' + b;
      PollUnfold(env, a);
      PollUnfold(env, a + b);
      var step := StepFor(env, m);
      if !step.Abort? {
        PollAppend(env, a', b);
        ExtendCombine(m, step, Poll(env, a'), Poll(env, b));
      }
    }
  }

  /**
   * Reads go out in mapping order, one per mapping, each for `length` words at
   * `register_address - 1`; without a panic every mapping is read.
   */
  lemma {:induction false} PollRequests(env: Env, ms: seq<Mapping>)
    requires Addressable(ms)
    ensures var p := Poll(env, ms);
      && (forall i :: 0 <= i < |p.requests| ==> p.requests[i] == ReadRequest(ms[i]))
      && (p.aborted.None? ==> |p.requests| == |ms|)
    decreases |ms|
  {
    if |ms| > 0 {
      PollUnfold(env, ms);
      PollRequests(env, ms[1..]);
      assert forall i :: 1 <= i < |ms| ==> ms[i] == ms[1..][i - 1];
    }
  }

  /**
   * The pass panics exactly when some mapping is fatal, and then on the first one: the last
   * mapping read is fatal, its data type is the one reported, and none before it is fatal.
   */
  lemma {:induction false} PollPanics(env: Env, ms: seq<Mapping>)
    requires Addressable(ms)
    ensures var p := Poll(env, ms);
      && (p.aborted.None? <==> forall i :: 0 <= i < |ms| ==> !Fatal(env, ms[i]))
      && (p.aborted.Some? ==>
        && |p.requests| >= 1
        && Fatal(env, ms[|p.requests| - 1])
        && p.aborted.value == ms[|p.requests| - 1].dataType
        && forall i :: 0 <= i < |p.requests| - 1 ==> !Fatal(env, ms[i]))
    decreases |ms|
  {
    if |ms| > 0 {
      PollUnfold(env, ms);
      PollPanics(env, ms[1..]);
      assert forall i :: 1 <= i < |ms| ==> ms[i] == ms[1..][i - 1];
    }
  }

  /** The indices of the mappings whose read succeeds, in increasing order. */
  function OkIndices(env: Env, ms: seq<Mapping>): (idx: seq<nat>)
    requires Addressable(ms)
    ensures forall j :: 0 <= j < |idx| ==> idx[j] < |ms| && ReadOk(env, ms[idx[j]])
    ensures forall j, k :: 0 <= j < k < |idx| ==> idx[j] < idx[k]
    ensures forall i :: 0 <= i < |ms| && ReadOk(env, ms[i]) ==> i in idx
    decreases |ms|
  {
    if |ms| == 0 then []
    else
      var n := |ms| - 1;
      var init := ms[..n];
      assert forall i :: 0 <= i < n ==> init[i] == ms[i];
      var idx := OkIndices(env, init);
      if ReadOk(env, ms[n]) then idx + [n] else idx
  }

  /** Dropping the last mapping keeps every address readable. */
  lemma AddressableInit(ms: seq<Mapping>)
    requires Addressable(ms) && |ms| > 0
    ensures Addressable(ms[..|ms| - 1])
  {
    assert forall i :: 0 <= i < |ms| - 1 ==> ms[..|ms| - 1][i] == ms[i];
  }

  /**
   * Without a panic, the points are exactly one per successful read, in mapping order: the
   * j-th point belongs to the j-th mapping whose read succeeded, and its field is that
   * mapping's snake-cased name with its converter's output.
   */
  lemma {:induction false} PollPointsFollowSuccessfulReads(env: Env, ms: seq<Mapping>)
    requires Addressable(ms)
    requires Poll(env, ms).aborted.None?
    ensures PointsMatch(env, ms, OkIndices(env, ms), Poll(env, ms).points)
    decreases |ms|
  {
    if |ms| > 0 {
      var n := |ms| - 1;
      var init, last := ms[..n], ms[n];
      AddressableInit(ms);
      assert ms == init + [last];
      PollAppend(env, init, [last]);
      PollSingle(env, last);
      PollPointsFollowSuccessfulReads(env, init);
      PointsMatchExtend(env, ms, OkIndices(env, init), Poll(env, init).points);
    }
  }

  /**
   * `points` are the points of the mappings at `idx`, one for one: the j-th point is built
   * from the mapping at `idx[j]`, whose data type has an arm, and the words its read returned.
   */
  predicate PointsMatch(env: Env, ms: seq<Mapping>, idx: seq<nat>, points: seq<DataPoint>)
    requires Addressable(ms)
  {
    && |points| == |idx|
    && forall j :: 0 <= j < |idx| ==>
      && idx[j] < |ms|
      && ReadOk(env, ms[idx[j]])
      && KnownDataType(ms[idx[j]].dataType)
      && points[j] == PointFor(env, ms[idx[j]], ReadResult(env, ms[idx[j]]).value)
  }

  /** Extending the matched prefix by the last mapping, which is not fatal. */
  lemma PointsMatchExtend(env: Env, ms: seq<Mapping>, idx: seq<nat>, points: seq<DataPoint>)
    requires Addressable(ms) && |ms| > 0
    requires Addressable(ms[..|ms| - 1])
    requires PointsMatch(env, ms[..|ms| - 1], idx, points)
    requires !Fatal(env, ms[|ms| - 1])
    ensures var last := ms[|ms| - 1];
      PointsMatch(env, ms,
        idx + (if ReadOk(env, last) then [|ms| - 1] else []),
        points + (if ReadOk(env, last) then [PointFor(env, last, ReadResult(env, last).value)] else []))
  {
    var n := |ms| - 1;
    assert forall i :: 0 <= i < n ==> ms[..n][i] == ms[i];
  }

  /** The pass over a single mapping that is not fatal. */
  lemma PollSingle(env: Env, m: Mapping)
    requires m.registerAddress >= 1
    ensures Addressable([m])
    ensures !Fatal(env, m) ==> Poll(env, [m]) == Pass([ReadRequest(m)],
      if ReadOk(env, m) then [PointFor(env, m, ReadResult(env, m).value)] else [], None)
  {
    PollUnfold(env, [m]);
    assert [m][1..] == [];
  }

  /** When every data type has an arm, the point count equals the number of successful reads. */
  lemma PointCountIsSuccessfulReads(env: Env, ms: seq<Mapping>)
    requires Addressable(ms)
    requires forall i :: 0 <= i < |ms| ==> KnownDataType(ms[i].dataType)
    ensures Poll(env, ms).aborted.None?
    ensures |Poll(env, ms).points| == |OkIndices(env, ms)|
  {
    PollPanics(env, ms);
    PollPointsFollowSuccessfulReads(env, ms);
  }

  /**
   * A failed read isolates its mapping: the pass pushes the same points and ends the same
   * way as the pass over the list without that mapping.
   */
  lemma FailedReadSkipsOnlyItsMapping(env: Env, ms: seq<Mapping>, i: nat)
    requires Addressable(ms)
    requires i < |ms| && !ReadOk(env, ms[i])
    ensures Addressable(ms[..i] + ms[i + 1..])
    ensures var p, q := Poll(env, ms), Poll(env, ms[..i] + ms[i + 1..]);
      p.points == q.points && p.aborted == q.aborted
  {
    var before, m, after := ms[..i], ms[i], ms[i + 1..];
    assert ms == before + ([m] + after);
    assert Addressable(before) by { assert forall k :: 0 <= k < i ==> before[k] == ms[k]; }
    assert Addressable(after) by { assert forall k :: 0 <= k < |after| ==> after[k] == ms[i + 1 + k]; }
    assert Addressable([m]);
    PollAppend(env, [m], after);
    PollAppend(env, before, [m] + after);
    PollAppend(env, before, after);
    PollUnfold(env, [m]);
    assert [m][1..] == [];
    var pm, pa, pb := Poll(env, [m]), Poll(env, after), Poll(env, before);
    assert pm == Pass([ReadRequest(m)], [], None);
    var mid := Combine(pm, pa);
    assert mid.points == pa.points && mid.aborted == pa.aborted;
  }

  // ---------------------------------------------------------------------------
  // The whole cycle
  // ---------------------------------------------------------------------------

  /**
   * One iteration of the outer `loop` up to the sleep: connect (panic on failure), poll the
   * mappings, close the connection once (panic on failure), then write all points to the
   * sink in one call. A failed write is logged and the cycle still finishes.
   */
  function RunCycle(
    config: InverterConfig, inverterAddress: string, transport: Transport,
    converters: Converters, snake: string -> string, sink: Sink): (o: Outcome)
    requires Addressable(config.mappings)
    ensures !transport.connects ==> o == Panicked([], ConnectFailed)
    ensures o.Finished? <==>
      && transport.connects && transport.closes
      && forall i :: 0 <= i < |config.mappings| ==>
        !Fatal(Env(config.inverterSlug, inverterAddress, transport.read, converters, snake), config.mappings[i])
    ensures o.Finished? ==>
      && |o.events| == |config.mappings| + 3
      && o.events[0] == Connect
      && (forall i :: 0 <= i < |config.mappings| ==> o.events[i + 1] == ReadRequest(config.mappings[i]))
      && o.events[|o.events| - 2] == Close
      && o.events[|o.events| - 1] == Write(sink.bucket, o.points)
      && o.writeOk == sink.accepts(o.points)
    ensures o.Finished? ==>
      o.points == Poll(Env(config.inverterSlug, inverterAddress, transport.read, converters, snake), config.mappings).points
    ensures o.Panicked? ==> (forall e :: e in o.events ==> !e.Write?) && (o.reason != CloseFailed ==> Close !in o.events)
    ensures var p := Poll(Env(config.inverterSlug, inverterAddress, transport.read, converters, snake), config.mappings);
      && (transport.connects && p.aborted.Some? ==> o == Panicked([Connect] + p.requests, NoConversion(p.aborted.value)))
      && (transport.connects && p.aborted.None? && !transport.closes ==>
        o == Panicked([Connect] + p.requests + [Close], CloseFailed))
  {
    var env := Env(config.inverterSlug, inverterAddress, transport.read, converters, snake);
    if !transport.connects then Panicked([], ConnectFailed)
    else
      var p := Poll(env, config.mappings);
      PollRequests(env, config.mappings);
      PollPanics(env, config.mappings);
      assert forall e :: e in p.requests ==> e.Read?;
      if p.aborted.Some? then Panicked([Connect] + p.requests, NoConversion(p.aborted.value))
      else if !transport.closes then Panicked([Connect] + p.requests + [Close], CloseFailed)
      else
        var events := [Connect] + p.requests + [Close, Write(sink.bucket, p.points)];
        assert forall i :: 0 <= i < |config.mappings| ==> events[i + 1] == p.requests[i];
        Finished(events, p.points, sink.accepts(p.points))
  }

  /**
   * A sink error does not stop the cycle: with a sink that rejects the points the cycle
   * does everything a cycle with an accepting sink does.
   */
  lemma SinkErrorOnlyLogged(
    config: InverterConfig, inverterAddress: string, transport: Transport,
    converters: Converters, snake: string -> string, bucket: string,
    accepts: seq<DataPoint> -> bool, rejects: seq<DataPoint> -> bool)
    requires Addressable(config.mappings)
    requires forall ps :: !rejects(ps)
    ensures var good := RunCycle(config, inverterAddress, transport, converters, snake, Sink(bucket, accepts));
      var bad := RunCycle(config, inverterAddress, transport, converters, snake, Sink(bucket, rejects));
      && (good.Finished? <==> bad.Finished?)
      && (bad.Finished? ==> bad.events == good.events && bad.points == good.points && !bad.writeOk)
  {
  }

  /** Only the connection's own failures and an unknown data type after a good read end a cycle early. */
  lemma PanicReasons(
    config: InverterConfig, inverterAddress: string, transport: Transport,
    converters: Converters, snake: string -> string, sink: Sink)
    requires Addressable(config.mappings)
    ensures var o := RunCycle(config, inverterAddress, transport, converters, snake, sink);
      o.Panicked? && o.reason.NoConversion? ==>
        exists i :: 0 <= i < |config.mappings| && config.mappings[i].dataType == o.reason.dataType
          && !KnownDataType(o.reason.dataType)
          && transport.read(config.mappings[i].registerAddress - 1, config.mappings[i].length).Some?
  {
    var env := Env(config.inverterSlug, inverterAddress, transport.read, converters, snake);
    var o := RunCycle(config, inverterAddress, transport, converters, snake, sink);
    if o.Panicked? && o.reason.NoConversion? {
      var p := Poll(env, config.mappings);
      PollRequests(env, config.mappings);
      PollPanics(env, config.mappings);
      var k := |p.requests| - 1;
      assert Fatal(env, config.mappings[k]);
    }
  }
}

=== FILE: hex.dfy ===
/** Lowercase hexadecimal text of a byte sequence, as the `hex` crate's `hex::encode` writes it. */
module Hex {
  import opened Wrappers
  import opened Words

  /** The characters `hex::encode` writes. */
  predicate IsLowerHexDigit(c: char) {
    '0' <= c <= '9' || 'a' <= c <= 'f'
  }

  /** The lowercase digit for a nibble (the table `0123456789abcdef`). */
  function Digit(n: nat): (c: char)
    requires n < 16
    ensures IsLowerHexDigit(c)
  {
    if n < 10 then ('0' as int + n) as char else ('a' as int + (n - 10)) as char
  }

  /** The nibble a lowercase digit stands for; `None` for any other character. */
  function DigitValue(c: char): (r: Option<nat>)
    ensures r.Some? <==> IsLowerHexDigit(c)
    ensures r.Some? ==> r.value < 16 && Digit(r.value) == c
  {
    if '0' <= c <= '9' then Some(c as int - '0' as int)
    else if 'a' <= c <= 'f' then Some(c as int - 'a' as int + 10)
    else None
  }

  /** Every digit reads back as its nibble. */
  lemma DigitValueOfDigit(n: nat)
    requires n < 16
    ensures DigitValue(Digit(n)) == Some(n)
  {
  }

  /** `hex::encode`: two digits per byte, high nibble first. */
  function Encode(bytes: seq<Byte>): (s: string)
    ensures |s| == 2 * |bytes|
    ensures forall i :: 0 <= i < |bytes| ==> s[2 * i] == Digit(bytes[i] / 16) && s[2 * i + 1] == Digit(bytes[i] % 16)
  {
    if |bytes| == 0 then []
    else
      var rest := Encode(bytes[1..]);
      var s := [Digit(bytes[0] / 16), Digit(bytes[0] % 16)] + rest;
      assert forall i :: 1 <= i < |bytes| ==> s[2 * i] == rest[2 * (i - 1)] && s[2 * i + 1] == rest[2 * (i - 1) + 1];
      s
  }

  /** Every character `Encode` produces is a lowercase hexadecimal digit. */
  lemma EncodeIsLowerHex(bytes: seq<Byte>)
    ensures forall k :: 0 <= k < |Encode(bytes)| ==> IsLowerHexDigit(Encode(bytes)[k])
  {
    var s := Encode(bytes);
    forall k | 0 <= k < |s|
      ensures IsLowerHexDigit(s[k])
    {
      var i := k / 2;
      if k % 2 == 0 {
        assert k == 2 * i;
        assert s[k] == Digit(bytes[i] / 16);
      } else {
        assert k == 2 * i + 1;
        assert s[k] == Digit(bytes[i] % 16);
      }
    }
  }

  /** Reads text back into bytes two digits at a time; `None` on odd length or a non-digit. */
  function Decode(s: string): (r: Option<seq<Byte>>)
    ensures r.Some? ==> 2 * |r.value| == |s|
    decreases |s|
  {
    if |s| == 0 then Some([])
    else if |s| == 1 then None
    else
      match (DigitValue(s[0]), DigitValue(s[1]), Decode(s[2..]))
      case (Some(hi), Some(lo), Some(rest)) => Some([hi * 16 + lo] + rest)
      case _ => None
  }

  /** Decoding the encoding of bytes gives the bytes back. */
  lemma {:induction false} DecodeEncode(bytes: seq<Byte>)
    ensures Decode(Encode(bytes)) == Some(bytes)
  {
    if |bytes| > 0 {
      var s := Encode(bytes);
      var b := bytes[0];
      DigitValueOfDigit(b / 16);
      DigitValueOfDigit(b % 16);
      assert s[2..] == Encode(bytes[1..]);
      DecodeEncode(bytes[1..]);
      assert bytes == [b] + bytes[1..];
    }
  }

  /** Any text that decodes is exactly the encoding of what it decodes to: lowercase, no padding. */
  lemma {:induction false} EncodeDecode(s: string)
    requires Decode(s).Some?
    ensures Encode(Decode(s).value) == s
  {
    if |s| > 0 {
      var hi, lo := DigitValue(s[0]).value, DigitValue(s[1]).value;
      var rest := Decode(s[2..]).value;
      EncodeDecode(s[2..]);
      var b := hi * 16 + lo;
      assert b / 16 == hi && b % 16 == lo;
      assert Decode(s).value == [b] + rest;
      assert Encode([b] + rest) == [Digit(hi), Digit(lo)] + Encode(rest) by {
        assert ([b] + rest)[1..] == rest;
      }
      assert s == [s[0], s[1]] + s[2..];
    }
  }

  /** The words spelled by hexadecimal text: four digits per word, most significant first. */
  function WordsOfHex(s: string): (r: Option<seq<Word>>)
    ensures r.Some? ==> 4 * |r.value| == |s|
  {
    match Decode(s)
    case Some(bytes) => if |bytes| % 2 == 0 then Some(FromBeBytes(bytes)) else None
    case None => None
  }

  /** Text written by `Encode` from an even number of bytes reads back as the words those bytes spell. */
  lemma WordsOfHexOfEncode(bytes: seq<Byte>)
    requires |bytes| % 2 == 0
    ensures WordsOfHex(Encode(bytes)) == Some(FromBeBytes(bytes))
  {
    DecodeEncode(bytes);
  }

  /** Reading the hexadecimal text of the big-endian bytes four digits at a time recovers the words. */
  lemma WordsOfHexRoundTrip(words: seq<Word>)
    ensures WordsOfHex(Encode(ToBeBytes(words))) == Some(words)
  {
    WordsOfHexOfEncode(ToBeBytes(words));
    FromToBeBytes(words);
  }
}

=== FILE: inverter_config.dfy ===
/**
 * The inverter schema: the records a YAML schema document is read into, and the way
 * serde's derived `Deserialize` fills them, including the field defaults.
 */
module InverterConfig {
  import opened Wrappers
  import opened Words

  /** The two recurrence kinds a statistic register can have. */
  datatype StatisticType = Daily | Monthly

  /** One entry of an enum table: a raw value and its label. */
  datatype ValueEnum = ValueEnum(key: string, value: string)

  /** One register range to read each cycle and how to interpret it. */
  datatype Mapping = Mapping(
    name: string,
    registerAddress: U16,
    length: U16,
    dataType: string,
    precision: Option<real>,
    valueEnum: Option<seq<ValueEnum>>,
    statisticType: Option<StatisticType>,
    statisticPointer: Option<U32>)

  /** A recurring statistic register; unlike `Mapping` it has no enum table and no pointer. */
  datatype StatisticMapping = StatisticMapping(
    name: string,
    registerAddress: U16,
    length: U16,
    dataType: string,
    precision: Option<real>,
    statisticType: Option<StatisticType>)

  /** The whole schema document. */
  datatype InverterConfig = InverterConfig(
    inverterSlug: string,
    mappings: seq<Mapping>,
    statisticMappings: seq<StatisticMapping>)

  /** The register count used when a mapping does not give `length`. */
  const DefaultRegisterLength: U16 := 1

  // ---------------------------------------------------------------------------
  // Reading a parsed YAML document into the records
  // ---------------------------------------------------------------------------

  /** A parsed YAML node, with scalars already resolved to their type. */
  datatype Yaml =
    | Null
    | Bool(b: bool)
    | Int(i: int)
    | Float(f: real)
    | Str(s: string)
    | List(items: seq<Yaml>)
    | Dict(entries: map<string, Yaml>)

  /** Why a document does not deserialize. */
  datatype ConfigError =
    | MissingField(field: string)
    | InvalidType(field: string)
    | OutOfRange(field: string)
    | UnknownVariant(field: string, variant: string)

  // Which nodes each field type accepts.

  predicate IsString(v: Yaml) {
    v.Str?
  }

  predicate IsU16(v: Yaml) {
    v.Int? && 0 <= v.i < 0x1_0000
  }

  predicate IsU32(v: Yaml) {
    v.Int? && 0 <= v.i < 0x1_0000_0000
  }

  /** `f64` accepts integers as well as floats. */
  predicate IsF64(v: Yaml) {
    v.Int? || v.Float?
  }

  /** A unit enum variant is written as its name. */
  predicate IsStatisticType(v: Yaml) {
    v.Str? && (v.s == "Daily" || v.s == "Monthly")
  }

  /** A `ValueEnum` is a map with string `key` and `value`. */
  predicate IsValueEnum(v: Yaml) {
    && v.Dict?
    && "key" in v.entries && IsString(v.entries["key"])
    && "value" in v.entries && IsString(v.entries["value"])
  }

  predicate IsValueEnumList(v: Yaml) {
    v.List? && forall i :: 0 <= i < |v.items| ==> IsValueEnum(v.items[i])
  }

  /** A `String` field accepts only a string node. */
  function DecodeString(field: string, v: Yaml): (r: Result<string, ConfigError>)
    ensures r.Success? <==> IsString(v)
    ensures r.Success? ==> r.value == v.s
  {
    if v.Str? then Success(v.s) else Failure(InvalidType(field))
  }

  /** A `u16` field: an integer in [0, 65535]; any other integer is out of range. */
  function DecodeU16(field: string, v: Yaml): (r: Result<U16, ConfigError>)
    ensures r.Success? <==> IsU16(v)
    ensures r.Success? ==> r.value == v.i
    ensures v.Int? && !r.Success? ==> r.error == OutOfRange(field)
  {
    if !v.Int? then Failure(InvalidType(field))
    else if 0 <= v.i < 0x1_0000 then Success(v.i)
    else Failure(OutOfRange(field))
  }

  /** A `u32` field: an integer in [0, 2^32). */
  function DecodeU32(field: string, v: Yaml): (r: Result<U32, ConfigError>)
    ensures r.Success? <==> IsU32(v)
    ensures r.Success? ==> r.value == v.i
  {
    if !v.Int? then Failure(InvalidType(field))
    else if 0 <= v.i < 0x1_0000_0000 then Success(v.i)
    else Failure(OutOfRange(field))
  }

  /** An `f64` field, modelled as a real number. */
  function DecodeF64(field: string, v: Yaml): (r: Result<real, ConfigError>)
    ensures r.Success? <==> IsF64(v)
    ensures r.Success? && v.Int? ==> r.value == v.i as real
    ensures r.Success? && v.Float? ==> r.value == v.f
  {
    match v
    case Int(i) => Success(i as real)
    case Float(f) => Success(f)
    case _ => Failure(InvalidType(field))
  }

  /** `StatisticType` accepts exactly its two variant names. */
  function DecodeStatisticType(field: string, v: Yaml): (r: Result<StatisticType, ConfigError>)
    ensures r.Success? <==> IsStatisticType(v)
    ensures r.Success? ==> (r.value == Daily <==> v.s == "Daily")
  {
    match v
    case Str(name) =>
      if name == "Daily" then Success(Daily)
      else if name == "Monthly" then Success(Monthly)
      else Failure(UnknownVariant(field, name))
    case _ => Failure(InvalidType(field))
  }

  /** Deserializes one enum table entry. */
  function DecodeValueEnum(field: string, v: Yaml): (r: Result<ValueEnum, ConfigError>)
    ensures r.Success? <==> IsValueEnum(v)
    ensures r.Success? ==> r.value == ValueEnum(v.entries["key"].s, v.entries["value"].s)
  {
    match v
    case Dict(doc) =>
      var key :- Required(doc, "key", DecodeString);
      var value :- Required(doc, "value", DecodeString);
      Success(ValueEnum(key, value))
    case _ => Failure(InvalidType(field))
  }

  /** A sequence field: every element must decode; order and count are kept. */
  function DecodeItems<T>(field: string, items: seq<Yaml>, decode: (string, Yaml) -> Result<T, ConfigError>)
    : (r: Result<seq<T>, ConfigError>)
    ensures r.Success? <==> forall i :: 0 <= i < |items| ==> decode(field, items[i]).Success?
    ensures r.Success? ==> |r.value| == |items|
    ensures r.Success? ==> forall i :: 0 <= i < |items| ==> r.value[i] == decode(field, items[i]).value
  {
    if |items| == 0 then Success([])
    else
      match (decode(field, items[0]), DecodeItems(field, items[1..], decode))
      case (Success(x), Success(xs)) =>
        var r := [x] + xs;
        assert forall i :: 1 <= i < |items| ==> items[i] == items[1..][i - 1] && r[i] == xs[i - 1];
        Success(r)
      case (Failure(e), _) => Failure(e)
      case (_, Failure(e)) =>
        assert exists i :: 1 <= i < |items| && !decode(field, items[i]).Success? by {
          var j :| 0 <= j < |items| - 1 && !decode(field, items[1..][j]).Success?;
          assert items[1..][j] == items[j + 1];
        }
        Failure(e)
  }

  /** Deserializes a `Vec<ValueEnum>`. */
  function DecodeValueEnumList(field: string, v: Yaml): (r: Result<seq<ValueEnum>, ConfigError>)
    ensures r.Success? <==> IsValueEnumList(v)
    ensures r.Success? ==> |r.value| == |v.items|
    ensures r.Success? ==> forall i :: 0 <= i < |v.items| ==>
      r.value[i] == ValueEnum(v.items[i].entries["key"].s, v.items[i].entries["value"].s)
  {
    match v
    case List(items) => DecodeItems(field, items, DecodeValueEnum)
    case _ => Failure(InvalidType(field))
  }

  /** A field without a default: absent is an error. */
  function Required<T>(doc: map<string, Yaml>, field: string, decode: (string, Yaml) -> Result<T, ConfigError>)
    : (r: Result<T, ConfigError>)
    ensures field !in doc ==> r == Failure(MissingField(field))
    ensures field in doc ==> r == decode(field, doc[field])
  {
    if field in doc then decode(field, doc[field]) else Failure(MissingField(field))
  }

  /** `#[serde(default = "...")]`: absent takes the default; present must decode. */
  function Defaulted<T>(doc: map<string, Yaml>, field: string, decode: (string, Yaml) -> Result<T, ConfigError>, default: T)
    : (r: Result<T, ConfigError>)
    ensures field !in doc ==> r == Success(default)
    ensures field in doc ==> r == decode(field, doc[field])
  {
    if field in doc then decode(field, doc[field]) else Success(default)
  }

  /** `#[serde(default)]` on an `Option`: absent or null is `None`; otherwise the value must decode. */
  function Optional<T>(doc: map<string, Yaml>, field: string, decode: (string, Yaml) -> Result<T, ConfigError>)
    : (r: Result<Option<T>, ConfigError>)
    ensures field !in doc || doc[field] == Null ==> r == Success(None)
    ensures field in doc && doc[field] != Null ==> (r.Success? <==> decode(field, doc[field]).Success?)
    ensures field in doc && doc[field] != Null && r.Success? ==> r.value == Some(decode(field, doc[field]).value)
  {
    if field !in doc || doc[field] == Null then Success(None)
    else
      var x :- decode(field, doc[field]);
      Success(Some(x))
  }

  // Whether a field of each kind is acceptable in a document.

  predicate RequiredOk(doc: map<string, Yaml>, field: string, ok: Yaml -> bool) {
    field in doc && ok(doc[field])
  }

  predicate DefaultedOk(doc: map<string, Yaml>, field: string, ok: Yaml -> bool) {
    field in doc ==> ok(doc[field])
  }

  predicate OptionalOk(doc: map<string, Yaml>, field: string, ok: Yaml -> bool) {
    field in doc && doc[field] != Null ==> ok(doc[field])
  }

  /** The fields of a `Mapping` document are present where required and of the right type. */
  predicate IsMappingDoc(v: Yaml) {
    && v.Dict?
    && RequiredOk(v.entries, "name", IsString)
    && RequiredOk(v.entries, "register_address", IsU16)
    && DefaultedOk(v.entries, "length", IsU16)
    && RequiredOk(v.entries, "data_type", IsString)
    && OptionalOk(v.entries, "precision", IsF64)
    && OptionalOk(v.entries, "value_enum", IsValueEnumList)
    && OptionalOk(v.entries, "statistic_type", IsStatisticType)
    && OptionalOk(v.entries, "statistic_pointer", IsU32)
  }

  /** Whether an optional field was given a value. */
  predicate Given(doc: map<string, Yaml>, field: string) {
    field in doc && doc[field] != Null
  }

  /**
   * Deserializes one `Mapping`. Unknown keys are ignored; `length` defaults to 1; the four
   * optional fields default to `None` and are `None` when written as null.
   */
  function DecodeMapping(v: Yaml): (r: Result<Mapping, ConfigError>)
    ensures r.Success? <==> IsMappingDoc(v)
    ensures r.Success? ==>
      var doc, m := v.entries, r.value;
      && m.name == doc["name"].s
      && m.registerAddress == doc["register_address"].i
      && m.dataType == doc["data_type"].s
      && ("length" in doc ==> m.length == doc["length"].i)
      && ("length" !in doc ==> m.length == 1)
      && (m.precision.Some? <==> Given(doc, "precision"))
      && (m.valueEnum.Some? <==> Given(doc, "value_enum"))
      && (m.statisticType.Some? <==> Given(doc, "statistic_type"))
      && (m.statisticPointer.Some? <==> Given(doc, "statistic_pointer"))
      && (Given(doc, "precision") ==> m.precision == Some(DecodeF64("precision", doc["precision"]).value))
      && (Given(doc, "value_enum") ==> m.valueEnum == Some(DecodeValueEnumList("value_enum", doc["value_enum"]).value))
      && (Given(doc, "statistic_type") ==> m.statisticType == Some(DecodeStatisticType("statistic_type", doc["statistic_type"]).value))
      && (Given(doc, "statistic_pointer") ==> m.statisticPointer == Some(doc["statistic_pointer"].i))
  {
    match v
    case Dict(doc) =>
      var name :- Required(doc, "name", DecodeString);
      var registerAddress :- Required(doc, "register_address", DecodeU16);
      var length :- Defaulted(doc, "length", DecodeU16, DefaultRegisterLength);
      var dataType :- Required(doc, "data_type", DecodeString);
      var precision :- Optional(doc, "precision", DecodeF64);
      var valueEnum :- Optional(doc, "value_enum", DecodeValueEnumList);
      var statisticType :- Optional(doc, "statistic_type", DecodeStatisticType);
      var statisticPointer :- Optional(doc, "statistic_pointer", DecodeU32);
      Success(Mapping(name, registerAddress, length, dataType, precision, valueEnum, statisticType, statisticPointer))
    case _ => Failure(InvalidType("mapping"))
  }

  /** The fields of a `StatisticMapping` document are present where required and of the right type. */
  predicate IsStatisticMappingDoc(v: Yaml) {
    && v.Dict?
    && RequiredOk(v.entries, "name", IsString)
    && RequiredOk(v.entries, "register_address", IsU16)
    && DefaultedOk(v.entries, "length", IsU16)
    && RequiredOk(v.entries, "data_type", IsString)
    && OptionalOk(v.entries, "precision", IsF64)
    && OptionalOk(v.entries, "statistic_type", IsStatisticType)
  }

  /** Deserializes one `StatisticMapping`, with the same defaults as `DecodeMapping`. */
  function DecodeStatisticMapping(v: Yaml): (r: Result<StatisticMapping, ConfigError>)
    ensures r.Success? <==> IsStatisticMappingDoc(v)
    ensures r.Success? ==>
      var doc, m := v.entries, r.value;
      && m.name == doc["name"].s
      && m.registerAddress == doc["register_address"].i
      && m.dataType == doc["data_type"].s
      && ("length" in doc ==> m.length == doc["length"].i)
      && ("length" !in doc ==> m.length == 1)
      && (m.precision.Some? <==> Given(doc, "precision"))
      && (m.statisticType.Some? <==> Given(doc, "statistic_type"))
      && (Given(doc, "precision") ==> m.precision == Some(DecodeF64("precision", doc["precision"]).value))
      && (Given(doc, "statistic_type") ==> m.statisticType == Some(DecodeStatisticType("statistic_type", doc["statistic_type"]).value))
  {
    match v
    case Dict(doc) =>
      var name :- Required(doc, "name", DecodeString);
      var registerAddress :- Required(doc, "register_address", DecodeU16);
      var length :- Defaulted(doc, "length", DecodeU16, DefaultRegisterLength);
      var dataType :- Required(doc, "data_type", DecodeString);
      var precision :- Optional(doc, "precision", DecodeF64);
      var statisticType :- Optional(doc, "statistic_type", DecodeStatisticType);
      Success(StatisticMapping(name, registerAddress, length, dataType, precision, statisticType))
    case _ => Failure(InvalidType("statistic_mapping"))
  }

  /** The schema document has its three fields, a string slug and two lists whose every element decodes. */
  predicate IsInverterConfigDoc(v: Yaml) {
    && v.Dict?
    && RequiredOk(v.entries, "inverter_slug", IsString)
    && "mappings" in v.entries && v.entries["mappings"].List?
    && (forall i :: 0 <= i < |v.entries["mappings"].items| ==> IsMappingDoc(v.entries["mappings"].items[i]))
    && "statistic_mappings" in v.entries && v.entries["statistic_mappings"].List?
    && (forall i :: 0 <= i < |v.entries["statistic_mappings"].items| ==>
      IsStatisticMappingDoc(v.entries["statistic_mappings"].items[i]))
  }

  /** Deserializes the schema document: all three top-level fields are required. */
  function DecodeInverterConfig(v: Yaml): (r: Result<InverterConfig, ConfigError>)
    ensures r.Success? ==> v.Dict? && "mappings" in v.entries && v.entries["mappings"].List?
    ensures r.Success? ==> |r.value.mappings| == |v.entries["mappings"].items|
    ensures r.Success? ==> forall i :: 0 <= i < |r.value.mappings| ==>
      DecodeMapping(v.entries["mappings"].items[i]) == Success(r.value.mappings[i])
    ensures r.Success? ==> "inverter_slug" in v.entries && v.entries["inverter_slug"] == Str(r.value.inverterSlug)
    ensures r.Success? ==> "statistic_mappings" in v.entries && v.entries["statistic_mappings"].List?
    ensures r.Success? ==> |r.value.statisticMappings| == |v.entries["statistic_mappings"].items|
    ensures r.Success? ==> forall i :: 0 <= i < |r.value.statisticMappings| ==>
      DecodeStatisticMapping(v.entries["statistic_mappings"].items[i]) == Success(r.value.statisticMappings[i])
    ensures !v.Dict? || "inverter_slug" !in v.entries || "mappings" !in v.entries || "statistic_mappings" !in v.entries ==> r.Failure?
    ensures IsInverterConfigDoc(v) ==> r.Success?
  {
    match v
    case Dict(doc) =>
      var slug :- Required(doc, "inverter_slug", DecodeString);
      var mappingList :- Required(doc, "mappings", (field, w) => DecodeList(field, w, DecodeMappingAt));
      var statisticList :- Required(doc, "statistic_mappings", (field, w) => DecodeList(field, w, DecodeStatisticMappingAt));
      Success(InverterConfig(slug, mappingList, statisticList))
    case _ => Failure(InvalidType("inverter_config"))
  }

  /** `DecodeMapping` in the shape a list decoder takes. */
  function DecodeMappingAt(field: string, v: Yaml): Result<Mapping, ConfigError> {
    DecodeMapping(v)
  }

  /** `DecodeStatisticMapping` in the shape a list decoder takes. */
  function DecodeStatisticMappingAt(field: string, v: Yaml): Result<StatisticMapping, ConfigError> {
    DecodeStatisticMapping(v)
  }

  /** A YAML sequence decoded element by element. */
  function DecodeList<T>(field: string, v: Yaml, decode: (string, Yaml) -> Result<T, ConfigError>)
    : (r: Result<seq<T>, ConfigError>)
    ensures r.Success? ==> v.List? && |r.value| == |v.items|
    ensures r.Success? ==> forall i :: 0 <= i < |v.items| ==> decode(field, v.items[i]) == Success(r.value[i])
    ensures v.List? && (forall i :: 0 <= i < |v.items| ==> decode(field, v.items[i]).Success?) ==> r.Success?
  {
    match v
    case List(items) => DecodeItems(field, items, decode)
    case _ => Failure(InvalidType(field))
  }

  // ---------------------------------------------------------------------------
  // Properties of the schema records
  // ---------------------------------------------------------------------------

  /** Nothing in `Mapping` keeps `precision` and `value_enum` apart: a document may set both. */
  lemma PrecisionAndEnumMayCoexist()
    ensures var doc := map[
        "name" := Str("status"), "register_address" := Int(33), "data_type" := Str("u16"),
        "precision" := Float(0.1), "value_enum" := List([])];
      var r := DecodeMapping(Dict(doc));
      r.Success? && r.value.precision == Some(0.1) && r.value.valueEnum == Some([])
  {
    var doc := map[
        "name" := Str("status"), "register_address" := Int(33), "data_type" := Str("u16"),
        "precision" := Float(0.1), "value_enum" := List([])];
    assert IsMappingDoc(Dict(doc));
    assert DecodeValueEnumList("value_enum", List([])) == Success([]);
  }

  /**
   * A `StatisticMapping` has no `value_enum` and no `statistic_pointer`: those keys, if
   * written, are ignored like any other unknown key.
   */
  lemma StatisticMappingIgnoresEnumAndPointer(doc: map<string, Yaml>)
    ensures DecodeStatisticMapping(Dict(doc)) == DecodeStatisticMapping(Dict(doc - {"value_enum", "statistic_pointer"}))
  {
    var other := doc - {"value_enum", "statistic_pointer"};
    forall f | f in {"name", "register_address", "length", "data_type", "precision", "statistic_type"}
      ensures (f in doc <==> f in other) && (f in doc ==> doc[f] == other[f])
    {
    }
  }

  // ---------------------------------------------------------------------------
  // Writing records as documents, and reading them back
  // ---------------------------------------------------------------------------

  /** The name a `StatisticType` variant is written as. */
  function StatisticTypeNode(t: StatisticType): Yaml {
    match t
    case Daily => Str("Daily")
    case Monthly => Str("Monthly")
  }

  /** A statistic type is read from exactly the node that writes it. */
  lemma StatisticTypeRoundTrip(field: string, v: Yaml, t: StatisticType)
    ensures DecodeStatisticType(field, v) == Success(t) <==> v == StatisticTypeNode(t)
  {
  }

  /** An optional field written as its value, or as null when absent. */
  function OptionalNode<T>(x: Option<T>, node: T -> Yaml): Yaml {
    match x
    case None => Null
    case Some(v) => node(v)
  }

  /** An enum table entry written as a map. */
  function ValueEnumNode(e: ValueEnum): Yaml {
    Dict(map["key" := Str(e.key), "value" := Str(e.value)])
  }

  /** An enum table written as a list of entries. */
  function ValueEnumListNode(es: seq<ValueEnum>): Yaml {
    List(seq(|es|, i requires 0 <= i < |es| => ValueEnumNode(es[i])))
  }

  /** The document that spells out every field of a mapping. */
  function MappingDoc(m: Mapping): Yaml {
    Dict(map[
      "name" := Str(m.name),
      "register_address" := Int(m.registerAddress),
      "length" := Int(m.length),
      "data_type" := Str(m.dataType),
      "precision" := OptionalNode(m.precision, (p: real) => Float(p)),
      "value_enum" := OptionalNode(m.valueEnum, ValueEnumListNode),
      "statistic_type" := OptionalNode(m.statisticType, StatisticTypeNode),
      "statistic_pointer" := OptionalNode(m.statisticPointer, (n: U32) => Int(n))])
  }

  /** The document that spells out every field of a statistic mapping. */
  function StatisticMappingDoc(m: StatisticMapping): Yaml {
    Dict(map[
      "name" := Str(m.name),
      "register_address" := Int(m.registerAddress),
      "length" := Int(m.length),
      "data_type" := Str(m.dataType),
      "precision" := OptionalNode(m.precision, (p: real) => Float(p)),
      "statistic_type" := OptionalNode(m.statisticType, StatisticTypeNode)])
  }

  /** An enum table reads back from its document entry for entry. */
  lemma ValueEnumListRoundTrip(es: seq<ValueEnum>)
    ensures DecodeValueEnumList("value_enum", ValueEnumListNode(es)) == Success(es)
  {
    var v := ValueEnumListNode(es);
    assert IsValueEnumList(v) by {
      forall i | 0 <= i < |v.items|
        ensures IsValueEnum(v.items[i])
      {
        assert v.items[i] == ValueEnumNode(es[i]);
      }
    }
    var r := DecodeValueEnumList("value_enum", v);
    assert |r.value| == |es|;
    forall i | 0 <= i < |es|
      ensures r.value[i] == es[i]
    {
      assert v.items[i] == ValueEnumNode(es[i]);
    }
    assert r.value == es;
  }

  /** Every mapping reads back unchanged from the document that writes all its fields. */
  lemma MappingRoundTrip(m: Mapping)
    ensures DecodeMapping(MappingDoc(m)) == Success(m)
  {
    var v := MappingDoc(m);
    var doc := v.entries;
    if m.valueEnum.Some? {
      ValueEnumListRoundTrip(m.valueEnum.value);
    }
    assert IsMappingDoc(v);
    var r := DecodeMapping(v).value;
    assert r.precision == m.precision;
    assert r.valueEnum == m.valueEnum;
    assert r.statisticType == m.statisticType;
    assert r.statisticPointer == m.statisticPointer;
  }

  /** Every statistic mapping reads back unchanged from the document that writes all its fields. */
  lemma StatisticMappingRoundTrip(m: StatisticMapping)
    ensures DecodeStatisticMapping(StatisticMappingDoc(m)) == Success(m)
  {
    var v := StatisticMappingDoc(m);
    assert IsStatisticMappingDoc(v);
    var r := DecodeStatisticMapping(v).value;
    assert r.precision == m.precision;
    assert r.statisticType == m.statisticType;
  }
}

=== FILE: trim.dfy ===
/** Rust's `str::trim`: removes leading and trailing characters with the Unicode White_Space property. */
module Trim {

  /** Rust's `char::is_whitespace`: the characters with the Unicode White_Space property. */
  predicate IsWhitespace(c: char) {
    var v := c as int;
    || v == 0x20
    || 0x09 <= v <= 0x0D
    || v == 0x85
    || v == 0xA0
    || v == 0x1680
    || 0x2000 <= v <= 0x200A
    || v == 0x2028
    || v == 0x2029
    || v == 0x202F
    || v == 0x205F
    || v == 0x3000
  }

  predicate AllWhitespace(s: string) {
    forall i :: 0 <= i < |s| ==> IsWhitespace(s[i])
  }

  /** Neither end of `s` is whitespace. */
  predicate IsTrimmed(s: string) {
    |s| == 0 || (!IsWhitespace(s[0]) && !IsWhitespace(s[|s| - 1]))
  }

  /** Length of the longest whitespace prefix. */
  function LeadingWhitespace(s: string): (n: nat)
    ensures n <= |s|
    ensures AllWhitespace(s[..n])
    ensures n < |s| ==> !IsWhitespace(s[n])
  {
    if |s| == 0 || !IsWhitespace(s[0]) then 0
    else
      var n := 1 + LeadingWhitespace(s[1..]);
      assert forall i :: 1 <= i < n ==> s[..n][i] == s[1..][..n - 1][i - 1];
      n
  }

  /** Length of the longest whitespace suffix. */
  function TrailingWhitespace(s: string): (n: nat)
    ensures n <= |s|
    ensures AllWhitespace(s[|s| - n..])
    ensures n < |s| ==> !IsWhitespace(s[|s| - n - 1])
  {
    if |s| == 0 || !IsWhitespace(s[|s| - 1]) then 0
    else
      var init := s[..|s| - 1];
      var n := 1 + TrailingWhitespace(init);
      assert s[|s| - n..] == init[|init| - (n - 1)..] + [s[|s| - 1]];
      n
  }

  /**
   * `str::trim`. The result is the part of `s` left after removing a whitespace prefix and a
   * whitespace suffix, and it neither starts nor ends with whitespace.
   */
  function Trim(s: string): (r: string)
    ensures IsTrimmed(r)
    ensures |r| <= |s|
    ensures var i := LeadingWhitespace(s);
      && i + |r| <= |s|
      && s == s[..i] + r + s[i + |r|..]
      && AllWhitespace(s[..i])
      && AllWhitespace(s[i + |r|..])
  {
    var i := LeadingWhitespace(s);
    var rest := s[i..];
    var j := TrailingWhitespace(rest);
    var r := rest[..|rest| - j];
    TrimSplit(s, i, j);
    assert |rest| > 0 ==> rest[0] == s[i];
    TrimEnds(rest, j);
    r
  }

  /** Cutting a suffix of `j` characters off a text that starts with non-whitespace, at a non-whitespace character, leaves neither end whitespace. */
  lemma TrimEnds(rest: string, j: nat)
    requires j <= |rest|
    requires |rest| > 0 ==> !IsWhitespace(rest[0])
    requires j < |rest| ==> !IsWhitespace(rest[|rest| - j - 1])
    ensures IsTrimmed(rest[..|rest| - j])
  {
  }

  /** Removing `i` characters at the front and then a whitespace suffix of `j` splits `s` into three parts. */
  lemma TrimSplit(s: string, i: nat, j: nat)
    requires i <= |s| && j <= |s| - i
    requires AllWhitespace(s[i..][|s| - i - j..])
    ensures var r := s[i..][..|s| - i - j];
      && s == s[..i] + r + s[i + |r|..]
      && AllWhitespace(s[i + |r|..])
  {
    assert s[i + (|s| - i - j)..] == s[i..][|s| - i - j..];
  }

  /** A whitespace prefix followed by a non-whitespace character is the longest whitespace prefix. */
  lemma LeadingWhitespaceSplit(p: string, x: string)
    requires AllWhitespace(p) && |x| > 0 && !IsWhitespace(x[0])
    ensures LeadingWhitespace(p + x) == |p|
  {
    var s := p + x;
    var i := LeadingWhitespace(s);
    assert s[|p|] == x[0];
    assert i <= |p|;
  }

  /** A non-whitespace character followed by a whitespace suffix ends before the longest whitespace suffix. */
  lemma TrailingWhitespaceSplit(x: string, q: string)
    requires AllWhitespace(q) && |x| > 0 && !IsWhitespace(x[|x| - 1])
    ensures TrailingWhitespace(x + q) == |q|
  {
    var s := x + q;
    var j := TrailingWhitespace(s);
    assert s[|x| - 1] == x[|x| - 1];
    assert j <= |q|;
  }

  /**
   * `Trim` is characterised by its contract: any split of `s` into whitespace, a trimmed
   * middle and whitespace has `Trim(s)` as its middle.
   */
  lemma TrimUnique(s: string, p: string, r: string, q: string)
    requires s == p + r + q
    requires AllWhitespace(p) && AllWhitespace(q) && IsTrimmed(r)
    ensures Trim(s) == r
  {
    if |r| == 0 {
      assert AllWhitespace(s) by {
        forall k | 0 <= k < |s|
          ensures IsWhitespace(s[k])
        {
          if k < |p| { assert s[k] == p[k]; } else { assert s[k] == q[k - |p|]; }
        }
      }
      assert LeadingWhitespace(s) == |s|;
    } else {
      assert s == p + (r + q);
      LeadingWhitespaceSplit(p, r + q);
      assert s[|p|..] == r + q;
      TrailingWhitespaceSplit(r, q);
      assert (r + q)[..|r|] == r;
    }
  }

  /** Trimming twice changes nothing. */
  lemma TrimIdempotent(s: string)
    ensures Trim(Trim(s)) == Trim(s)
  {
    var r := Trim(s);
    assert r == [] + r + [];
    TrimUnique(r, [], r, []);
  }

  /** A string made only of whitespace trims to the empty string. */
  lemma TrimAllWhitespace(s: string)
    requires AllWhitespace(s)
    ensures Trim(s) == []
  {
    assert s == s + [] + [];
    TrimUnique(s, s, [], []);
  }
}

=== FILE: utf8.dfy ===
/**
 * Lossy UTF-8 decoding as Rust's `String::from_utf8_lossy` performs it: well-formed
 * sequences become their scalar value; every maximal invalid prefix becomes one U+FFFD.
 * Decoding never fails.
 */
module Utf8 {
  import opened Words

  /** U+FFFD REPLACEMENT CHARACTER, emitted once per invalid sequence. */
  const Replacement: char := 0xFFFD as char

  /** Continuation bytes have the bit pattern 10xxxxxx. */
  predicate IsContinuation(b: Byte) {
    0x80 <= b < 0xC0
  }

  /** The byte at `i`, or 0 past the end, so that a truncated sequence reads as invalid. */
  function ByteAt(bytes: seq<Byte>, i: nat): Byte {
    if i < |bytes| then bytes[i] else 0
  }

  /** Admissible second bytes after a three-byte lead: no overlong forms, no surrogates. */
  predicate ThreeByteSecondOk(lead: Byte, b: Byte) {
    || (lead == 0xE0 && 0xA0 <= b <= 0xBF)
    || (0xE1 <= lead <= 0xEC && 0x80 <= b <= 0xBF)
    || (lead == 0xED && 0x80 <= b <= 0x9F)
    || (0xEE <= lead <= 0xEF && 0x80 <= b <= 0xBF)
  }

  /** Admissible second bytes after a four-byte lead: no overlong forms, nothing above U+10FFFF. */
  predicate FourByteSecondOk(lead: Byte, b: Byte) {
    || (lead == 0xF0 && 0x90 <= b <= 0xBF)
    || (0xF1 <= lead <= 0xF3 && 0x80 <= b <= 0xBF)
    || (lead == 0xF4 && 0x80 <= b <= 0x8F)
  }

  /** What one step of the decoder recognises at the front of the input, and how many bytes it takes. */
  datatype Step = Valid(c: char, size: nat) | Invalid(size: nat)

  /** The scalar value a well-formed two-byte sequence encodes. */
  function Scalar2(b0: Byte, b1: Byte): char
    requires 0xC2 <= b0 <= 0xDF && IsContinuation(b1)
  {
    ((b0 - 0xC0) * 64 + (b1 - 0x80)) as char
  }

  /** The scalar value a well-formed three-byte sequence encodes. */
  function Scalar3(b0: Byte, b1: Byte, b2: Byte): char
    requires ThreeByteSecondOk(b0, b1) && IsContinuation(b2)
  {
    ((b0 - 0xE0) * 4096 + (b1 - 0x80) * 64 + (b2 - 0x80)) as char
  }

  /** The scalar value a well-formed four-byte sequence encodes. */
  function Scalar4(b0: Byte, b1: Byte, b2: Byte, b3: Byte): char
    requires FourByteSecondOk(b0, b1) && IsContinuation(b2) && IsContinuation(b3)
  {
    ((b0 - 0xF0) * 0x40000 + (b1 - 0x80) * 4096 + (b2 - 0x80) * 64 + (b3 - 0x80)) as char
  }

  /**
   * One step of the chunking loop: a valid character and its length, or the length of the
   * invalid prefix, which is the lead byte plus the continuation bytes accepted before the
   * first byte that does not fit.
   */
  function NextStep(bytes: seq<Byte>): (s: Step)
    requires |bytes| > 0
    ensures 1 <= s.size <= 4 && s.size <= |bytes|
    ensures s.Valid? && s.size == 1 <==> bytes[0] < 0x80
  {
    var b0, b1, b2, b3 := bytes[0], ByteAt(bytes, 1), ByteAt(bytes, 2), ByteAt(bytes, 3);
    if b0 < 0x80 then Valid(b0 as char, 1)
    else if 0xC2 <= b0 <= 0xDF then
      if IsContinuation(b1) then Valid(Scalar2(b0, b1), 2) else Invalid(1)
    else if 0xE0 <= b0 <= 0xEF then
      if !ThreeByteSecondOk(b0, b1) then Invalid(1)
      else if !IsContinuation(b2) then Invalid(2)
      else Valid(Scalar3(b0, b1, b2), 3)
    else if 0xF0 <= b0 <= 0xF4 then
      if !FourByteSecondOk(b0, b1) then Invalid(1)
      else if !IsContinuation(b2) then Invalid(2)
      else if !IsContinuation(b3) then Invalid(3)
      else Valid(Scalar4(b0, b1, b2, b3), 4)
    else Invalid(1)
  }

  /** `String::from_utf8_lossy`: total, one character per step. */
  function DecodeLossy(bytes: seq<Byte>): (s: string)
    ensures |s| <= |bytes| <= 4 * |s|
    decreases |bytes|
  {
    if |bytes| == 0 then []
    else
      match NextStep(bytes)
      case Valid(c, n) => [c] + DecodeLossy(bytes[n..])
      case Invalid(n) => [Replacement] + DecodeLossy(bytes[n..])
  }

  /** The UTF-8 encoding of one character (what `str::as_bytes` holds for it). */
  function EncodeChar(c: char): (bytes: seq<Byte>)
    ensures 1 <= |bytes| <= 4
    ensures |bytes| == 1 <==> c as int < 0x80
  {
    var v := c as int;
    if v < 0x80 then [v]
    else if v < 0x800 then [0xC0 + v / 64, 0x80 + v % 64]
    else if v < 0x1_0000 then [0xE0 + v / 4096, 0x80 + v / 64 % 64, 0x80 + v % 64]
    else [0xF0 + v / 0x40000, 0x80 + v / 4096 % 64, 0x80 + v / 64 % 64, 0x80 + v % 64]
  }

  /** The UTF-8 encoding of a string. */
  function Encode(s: string): (bytes: seq<Byte>)
    ensures |s| <= |bytes| <= 4 * |s|
  {
    if |s| == 0 then [] else EncodeChar(s[0]) + Encode(s[1..])
  }

  /** The two-byte encoding of `v` is well formed and decodes to `v`. */
  lemma NextStepEncode2(v: int, rest: seq<Byte>)
    requires 0x80 <= v < 0x800
    ensures var bytes := [0xC0 + v / 64, 0x80 + v % 64] + rest;
      0xC2 <= bytes[0] <= 0xDF && IsContinuation(bytes[1]) && Scalar2(bytes[0], bytes[1]) as int == v
  {
  }

  /** The three-byte encoding of a non-surrogate `v` is well formed and decodes to `v`. */
  lemma NextStepEncode3(v: int, rest: seq<Byte>)
    requires 0x800 <= v < 0xD800 || 0xE000 <= v < 0x1_0000
    ensures var bytes := [0xE0 + v / 4096, 0x80 + v / 64 % 64, 0x80 + v % 64] + rest;
      && 0xE0 <= bytes[0] <= 0xEF && ThreeByteSecondOk(bytes[0], bytes[1]) && IsContinuation(bytes[2])
      && Scalar3(bytes[0], bytes[1], bytes[2]) as int == v
  {
    var q, r := v / 64, v % 64;
    var t, m := q / 64, q % 64;
    assert v == 64 * q + r;
    assert q == 64 * t + m;
    assert v / 4096 == t;
  }

  /** The four-byte encoding of `v` is well formed and decodes to `v`. */
  lemma NextStepEncode4(v: int, rest: seq<Byte>)
    requires 0x1_0000 <= v < 0x11_0000
    ensures var bytes := [0xF0 + v / 0x40000, 0x80 + v / 4096 % 64, 0x80 + v / 64 % 64, 0x80 + v % 64] + rest;
      && 0xF0 <= bytes[0] <= 0xF4 && FourByteSecondOk(bytes[0], bytes[1])
      && IsContinuation(bytes[2]) && IsContinuation(bytes[3])
      && Scalar4(bytes[0], bytes[1], bytes[2], bytes[3]) as int == v
  {
    var q, r := v / 64, v % 64;
    var t, m := q / 64, q % 64;
    var u, n := t / 64, t % 64;
    assert v == 64 * q + r;
    assert q == 64 * t + m;
    assert t == 64 * u + n;
    assert v / 4096 == t;
    assert v / 0x40000 == u;
  }

  /** The decoder recognises the encoding of any character, whatever follows it. */
  lemma NextStepEncodeChar(c: char, rest: seq<Byte>)
    ensures NextStep(EncodeChar(c) + rest) == Valid(c, |EncodeChar(c)|)
  {
    var v := c as int;
    if v < 0x80 {
    } else if v < 0x800 {
      NextStepEncode2(v, rest);
    } else if v < 0x1_0000 {
      NextStepEncode3(v, rest);
    } else {
      NextStepEncode4(v, rest);
    }
  }

  /** A well-formed two-byte sequence is the encoding of the character it decodes to. */
  lemma EncodeScalar2(b0: Byte, b1: Byte)
    requires 0xC2 <= b0 <= 0xDF && IsContinuation(b1)
    ensures EncodeChar(Scalar2(b0, b1)) == [b0, b1]
  {
    var v := (b0 - 0xC0) * 64 + (b1 - 0x80);
    assert v / 64 == b0 - 0xC0 && v % 64 == b1 - 0x80;
  }

  /** A well-formed three-byte sequence is the encoding of the character it decodes to. */
  lemma EncodeScalar3(b0: Byte, b1: Byte, b2: Byte)
    requires ThreeByteSecondOk(b0, b1) && IsContinuation(b2)
    ensures EncodeChar(Scalar3(b0, b1, b2)) == [b0, b1, b2]
  {
    var q := (b0 - 0xE0) * 64 + (b1 - 0x80);
    var v := q * 64 + (b2 - 0x80);
    assert v / 64 == q && v % 64 == b2 - 0x80;
    assert q / 64 == b0 - 0xE0 && q % 64 == b1 - 0x80;
    assert v / 4096 == q / 64;
    assert 0x800 <= v < 0x1_0000;
  }

  /** A well-formed four-byte sequence is the encoding of the character it decodes to. */
  lemma EncodeScalar4(b0: Byte, b1: Byte, b2: Byte, b3: Byte)
    requires FourByteSecondOk(b0, b1) && IsContinuation(b2) && IsContinuation(b3)
    ensures EncodeChar(Scalar4(b0, b1, b2, b3)) == [b0, b1, b2, b3]
  {
    var t := (b0 - 0xF0) * 64 + (b1 - 0x80);
    var q := t * 64 + (b2 - 0x80);
    var v := q * 64 + (b3 - 0x80);
    assert v / 64 == q && v % 64 == b3 - 0x80;
    assert q / 64 == t && q % 64 == b2 - 0x80;
    assert t / 64 == b0 - 0xF0 && t % 64 == b1 - 0x80;
    assert v / 4096 == q / 64;
    assert v / 0x40000 == t / 64;
    assert 0x1_0000 <= v;
  }

  /** Whatever a decoding step accepts as a character is exactly that character's encoding. */
  lemma NextStepValidIsEncoding(bytes: seq<Byte>)
    requires |bytes| > 0
    ensures NextStep(bytes).Valid? ==>
      bytes[..NextStep(bytes).size] == EncodeChar(NextStep(bytes).c)
  {
    var b0, b1, b2, b3 := bytes[0], ByteAt(bytes, 1), ByteAt(bytes, 2), ByteAt(bytes, 3);
    if b0 < 0x80 {
    } else if 0xC2 <= b0 <= 0xDF {
      if IsContinuation(b1) { EncodeScalar2(b0, b1); }
    } else if 0xE0 <= b0 <= 0xEF {
      if ThreeByteSecondOk(b0, b1) && IsContinuation(b2) { EncodeScalar3(b0, b1, b2); }
    } else if 0xF0 <= b0 <= 0xF4 {
      if FourByteSecondOk(b0, b1) && IsContinuation(b2) && IsContinuation(b3) {
        EncodeScalar4(b0, b1, b2, b3);
      }
    }
  }

  /**
   * A decoding step yields the character `c` exactly when the input starts with the UTF-8
   * encoding of `c`. Any other start, overlong forms and surrogates included, is invalid.
   */
  lemma NextStepValidIff(bytes: seq<Byte>, c: char)
    requires |bytes| > 0
    ensures NextStep(bytes) == Valid(c, |EncodeChar(c)|)
      <==> |EncodeChar(c)| <= |bytes| && bytes[..|EncodeChar(c)|] == EncodeChar(c)
  {
    var e := EncodeChar(c);
    NextStepValidIsEncoding(bytes);
    if |e| <= |bytes| && bytes[..|e|] == e {
      assert bytes == e + bytes[|e|..];
      NextStepEncodeChar(c, bytes[|e|..]);
    }
  }

  /** Lossy decoding loses nothing on well-formed input: it inverts `Encode`. */
  lemma {:induction false} DecodeEncode(s: string)
    ensures DecodeLossy(Encode(s)) == s
  {
    if |s| > 0 {
      var head := EncodeChar(s[0]);
      var rest := Encode(s[1..]);
      NextStepEncodeChar(s[0], rest);
      assert (head + rest)[|head|..] == rest;
      DecodeEncode(s[1..]);
      assert s == [s[0]] + s[1..];
    }
  }

  /** Bytes below 0x80 decode one-for-one into the characters with those codes. */
  lemma {:induction false} DecodeAscii(bytes: seq<Byte>)
    requires forall i :: 0 <= i < |bytes| ==> bytes[i] < 0x80
    ensures |DecodeLossy(bytes)| == |bytes|
    ensures forall i :: 0 <= i < |bytes| ==> DecodeLossy(bytes)[i] as int == bytes[i]
  {
    if |bytes| > 0 {
      DecodeAscii(bytes[1..]);
      var s := DecodeLossy(bytes);
      assert s == [bytes[0] as char] + DecodeLossy(bytes[1..]);
    }
  }
}

=== FILE: words.dfy ===
/** Register words and bytes, and the big-endian byte layout every conversion starts from. */
module Words {

  /** A 16-bit register word as returned by the Modbus transport (Rust `u16`). */
  type Word = x: int | 0 <= x < 0x1_0000

  /** Configuration fields declared `u16` share the range of a register word. */
  type U16 = Word

  /** Configuration fields declared `u32`. */
  type U32 = x: int | 0 <= x < 0x1_0000_0000

  /** One byte (Rust `u8`). */
  type Byte = x: int | 0 <= x < 0x100

  /** The high byte of a word, the first one `u16::to_be_bytes` emits. */
  function High(w: Word): Byte {
    w / 256
  }

  /** The low byte of a word. */
  function Low(w: Word): Byte {
    w % 256
  }

  /** The word whose big-endian bytes are `hi`, `lo`. */
  function Join(hi: Byte, lo: Byte): (w: Word)
    ensures High(w) == hi && Low(w) == lo
  {
    hi as int * 256 + lo
  }

  /** A word is recovered from its two bytes. */
  lemma JoinHighLow(w: Word)
    ensures Join(High(w), Low(w)) == w
  {
  }

  /** `u16::to_be_bytes` flattened over the words: each word contributes its high byte, then its low byte. */
  function ToBeBytes(words: seq<Word>): (bytes: seq<Byte>)
    ensures |bytes| == 2 * |words|
    ensures forall i :: 0 <= i < |words| ==> bytes[2 * i] == High(words[i]) && bytes[2 * i + 1] == Low(words[i])
  {
    if |words| == 0 then []
    else
      var rest := ToBeBytes(words[1..]);
      var bytes := [High(words[0]), Low(words[0])] + rest;
      assert forall i :: 1 <= i < |words| ==> bytes[2 * i] == rest[2 * (i - 1)] && bytes[2 * i + 1] == rest[2 * (i - 1) + 1];
      bytes
  }

  /** Reassembles words from big-endian byte pairs: the inverse of `ToBeBytes`. */
  function FromBeBytes(bytes: seq<Byte>): (words: seq<Word>)
    requires |bytes| % 2 == 0
    ensures 2 * |words| == |bytes|
    ensures forall i :: 0 <= i < |words| ==> words[i] == Join(bytes[2 * i], bytes[2 * i + 1])
  {
    if |bytes| == 0 then []
    else
      var rest := FromBeBytes(bytes[2..]);
      var words := [Join(bytes[0], bytes[1])] + rest;
      assert forall i :: 1 <= i < |words| ==> words[i] == rest[i - 1];
      words
  }

  /** Splitting words into bytes and joining them again gives the words back. */
  lemma FromToBeBytes(words: seq<Word>)
    ensures FromBeBytes(ToBeBytes(words)) == words
  {
    var back := FromBeBytes(ToBeBytes(words));
    assert |back| == |words|;
    forall i | 0 <= i < |words|
      ensures back[i] == words[i]
    {
      JoinHighLow(words[i]);
    }
  }

  /** Joining byte pairs into words and splitting them again gives the bytes back. */
  lemma {:induction false} ToFromBeBytes(bytes: seq<Byte>)
    requires |bytes| % 2 == 0
    ensures ToBeBytes(FromBeBytes(bytes)) == bytes
  {
    if |bytes| > 0 {
      var words := FromBeBytes(bytes);
      ToFromBeBytes(bytes[2..]);
      assert words == [Join(bytes[0], bytes[1])] + FromBeBytes(bytes[2..]);
      assert words[1..] == FromBeBytes(bytes[2..]);
      assert bytes == [bytes[0], bytes[1]] + bytes[2..];
    }
  }

  /** Bytes of a concatenation are the concatenation of the bytes. */
  lemma {:induction false} ToBeBytesAppend(a: seq<Word>, b: seq<Word>)
    ensures ToBeBytes(a + b) == ToBeBytes(a) + ToBeBytes(b)
  {
    var l := ToBeBytes(a + b);
    var r := ToBeBytes(a) + ToBeBytes(b);
    assert |l| == |r|;
    forall k | 0 <= k < |l|
      ensures l[k] == r[k]
    {
      var i := k / 2;
      if i < |a| {
        assert (a + b)[i] == a[i];
      } else {
        assert (a + b)[i] == b[i - |a|];
        assert r[k] == ToBeBytes(b)[k - 2 * |a|];
      }
      if k % 2 == 0 {
        assert k == 2 * i;
      } else {
        assert k == 2 * i + 1;
      }
    }
  }
}

=== FILE: wrappers.dfy ===
/** Failure-compatible Option and Result datatypes shared by the other modules. */
module Wrappers {

  /** A value that may be absent: Rust's `Option<T>`. */
  datatype Option<+T> = None | Some(value: T)

  /** A value or an error: Rust's `Result<T, E>`. */
  datatype Result<+T, +E> = Success(value: T) | Failure(error: E) {

    predicate IsFailure() {
      Failure?
    }

    function PropagateFailure<U>(): Result<U, E>
      requires Failure?
    {
      Failure(error)
    }

    function Extract(): T
      requires Success?
    {
      value
    }
  }
}
